=== FILE: README.md ===
# PaphraTkTable in Dafny

A model of the `Table` widget of PaphraTkTable, a scrollable tkinter table
whose rows are Python dictionaries. The package ships two copies of the
widget, `build/lib/paphra_tktable/table.py` (the build copy) and
`src/table.py` (the src copy). They behave the same except for how a click
finds its row window: the build copy compares the window's name with the
last component of the clicked widget's parent path, while the src copy
tests whether the name occurs anywhere in that path. The model covers both
through a `MatchMode` parameter.

What is modelled:

- **Records and the empty-list sentinel** (`rows.dfy`, module `Rows`).
  `check_rows` replaces an empty list with one row that shows
  "Nothing is Found!" under the first key and blanks elsewhere. The lookups
  follow `titles.index`, so they take the first occurrence. This module
  also holds the demo configuration of the constructor and the 30 rows
  `work_on_mock` builds.
- **Geometry** (`layout.dfy`, module `Layout`):
  - the grid columns `_sep_work` hands out;
  - the header's `col_span`;
  - each row window's canvas offset;
  - the scroll-region height.
- **Row windows** (`widgets.dfy`, module `Widgets`):
  - the children `add_rows` and `_make_row_widgets` create for each record: an S/N label, one cell per key, the vertical rules and a closing horizontal rule;
  - `_shade`, which recolours the labels.
- **Click resolution** (`matching.dfy`, module `Matching`):
  - the path comparison, in both copies' forms;
  - the record scan of `_select`, which keeps the LAST record whose first value equals the clicked text. It is checked against an independent definition that searches from the end.
- **The widget state and its operations** (`table.dfy`, module
  `TableWidget`). The state is an immutable value:
  - `rows_list`;
  - the toolkit names of the canvas windows (what each window holds follows from its record, `TableWidget.Frames`);
  - which windows are shaded (and sunken);
  - `selected_w`, `selected_row` and `sel_ind`;
  - whether `rows_list` is the very list object `mock_rows`.

  Each operation is a function from one state to the next: construction, `add_rows`, a click (`_click`/`_selection` followed by `_select`), `delete_row` with `_select_new_after_delete`, and `get_selected`. `Valid` is the invariant every operation keeps: the canvas shows exactly the loaded records, in order, and a selected record is one of them and has a shaded window.
- **Properties that relate several operations** (`table_facts.dfy`, module
  `TableFacts`):
  - a load followed by a click on window `k` gives back record `k`;
  - after a build-copy click at most one window is shaded, and it is the selected one;
  - deleting the selected record removes exactly it, and selects the record that moves into its window;
  - with pairwise different keys the sentinel cannot be selected; with a key declared twice it can (`TableFacts.RepeatedKeySentinelSelectable`);
  - the demo table;
  - the effect of the `mock_rows` alias.
- **Findings** (`findings.dfy`, module `Findings`): see below.

Where the code differs from what a reader of the widget would expect, the
model follows the code:

- One might expect `add_rows([])` to show the "Nothing is Found!" row that
  `check_rows` builds, but `add_rows` itself does not call `check_rows`.
  Loading an empty list therefore draws no window at all. The sentinel
  appears only when `delete_row` removes the last record
  (`TableWidget.AddRows`, `TableWidget.Delete`).
- The module docstring (build/lib/paphra_tktable/table.py:5-7) says that
  once a row is deleted "another is automatically selected in the place of
  the deleted row". `_select_new_after_delete` selects the window at the
  OLD `sel_ind`, so deleting the LAST window selects nothing: selecting "B"
  in ["A", "B"] and deleting it leaves `sel_ind` = 1 with one window, and
  "A" is not selected (`TableFacts.DeleteSecondExample`).
- One might expect a column type other than "l", "c" or "e" to drop the
  cell. Instead `_make_row_widgets` appends `None`, and `_sep_work` then
  fails calling `grid` on it. The model requires known types
  (`ColumnsDrawable`) wherever rows are drawn.

Crashes of the source become preconditions:

- a record without a declared key (`HasKeys`);
- an unknown column type (`ColumnsDrawable`);
- a click on a row whose first column is not a label, since `_select` reads `_wch[1]['text']` (`FirstIsLabel`, `ClickServable`);
- deleting the last record when `check_rows` cannot build a drawable sentinel (`DeleteFits`).

## Model

| member | source | states |
|---|---|---|
| Seqs.IndexOf | build/lib/paphra_tktable/table.py:340 | `keys.index(key)` finds a position holding the key, and no earlier position holds it |
| Seqs.FirstAt | build/lib/paphra_tktable/table.py:340 | `keys.index(keys[c])` is a position at or before `c` holding the same key |
| Seqs.RemoveFirst | build/lib/paphra_tktable/table.py:421 | `rows_list.remove(x)` shortens the list by one and is the list with its first `x` cut out |
| Seqs.RemoveFirstMultiset | build/lib/paphra_tktable/table.py:421 | `remove` takes away exactly one copy of `x` and keeps every other element |
| Rows.SentinelPrefix | build/lib/paphra_tktable/table.py:112-119 | every value the loop writes into the sentinel row is the placeholder or blank |
| Rows.Sentinel | build/lib/paphra_tktable/table.py:112-119 | the row `check_rows` builds for an empty list: one key per descriptor, placeholder under `keys[0]`; its values and keys are stated by `Rows.SentinelValue` and `Rows.SentinelKeys` |
| Rows.SentinelPrefixKeys | build/lib/paphra_tktable/table.py:112-119 | after `n` descriptors the sentinel row's keys are `keys[titles.index(t)]` for those descriptors, no more and no fewer |
| Rows.CheckRows | build/lib/paphra_tktable/table.py:98-120 | a non-empty list is returned unchanged; an empty one becomes a single row of placeholder/blank values |
| Rows.SentinelValue | build/lib/paphra_tktable/table.py:112-119 | with distinct keys, the first key maps to "Nothing is Found!" and every other key to "" |
| Rows.SentinelKeys | build/lib/paphra_tktable/table.py:112-119 | with distinct descriptors and one key per column, the sentinel has exactly the declared keys |
| Rows.CheckRowsEmpty | src/table.py:50-63 | `check_rows([])` yields one row: the placeholder under the first key, blanks under the rest, no other keys |
| Rows.Decimal | build/lib/paphra_tktable/table.py:196 | `str(i + 1)`: the decimal digits of a number, at least one and at least two from 10 on; also the S/N label text at table.py:303 |
| Rows.DecimalInjective | build/lib/paphra_tktable/table.py:194-198 | `str(i + 1)` of different numbers differ, so the demo rows are told apart by their text |
| Rows.MockRowsShape | build/lib/paphra_tktable/table.py:189-198 | there are 30 demo records, each with exactly the keys col1..col4 and pairwise different col1 texts |
| Rows.MockRows | build/lib/paphra_tktable/table.py:189-199 | the 30 records `work_on_mock` appends, record `i` holding "value of col c row i+1" under `colc`; `Rows.MockRowsShape` states their shape |
| Layout.SepLoop | build/lib/paphra_tktable/table.py:85-95 | the loop places rule, widget, rule, ... with the running column stepping by two |
| Layout.SepWork | build/lib/paphra_tktable/table.py:75-95 | the grid calls of `_sep_work` in order; `Layout.SepWorkColumns` states their columns |
| Layout.SepWorkColumns | build/lib/paphra_tktable/table.py:75-95 | `_sep_work` on `n` widgets puts rules at columns 0, 2, ..., 2n and widget `c` at column 2c+1 |
| Layout.RowFitsColSpan | build/lib/paphra_tktable/table.py:209-210 | every widget and every rule but the last lies inside `col_span`; the closing rule sits at column `col_span` |
| Layout.ColSpan | build/lib/paphra_tktable/table.py:209-210 | `col_span` is twice the number of descriptors plus two; `Layout.RowFitsColSpan` shows it covers a row |
| Layout.YLoop | build/lib/paphra_tktable/table.py:297-316 | the `y_cord` loop gives row `i` the offset 26 * i |
| Layout.RowOffsets | src/table.py:225-245 | the offsets of `n` windows are 0, 26, ..., 26(n-1) |
| Layout.ScrollHeight | build/lib/paphra_tktable/table.py:290-293 | the scroll region is 26 pixels per record; `TableWidget.Load` keeps it equal to the number of windows times 26 |
| Widgets.Shade | build/lib/paphra_tktable/table.py:58-72 | `_shade` gives each label the colour (None meaning "") and leaves other widgets alone |
| Widgets.ShadeIdempotent | src/table.py:11-24 | shading twice with one colour is shading once |
| Widgets.ShadeColours | build/lib/paphra_tktable/table.py:408 | after `_shade(_wch, 'grey')` every label of the row is grey |
| Widgets.UnshadeUnshaded | build/lib/paphra_tktable/table.py:373 | unshading a row nobody shaded changes nothing |
| Widgets.ShadeUndo | build/lib/paphra_tktable/table.py:373 | unshading a shaded row restores the widgets as drawn |
| Widgets.MakeCell | build/lib/paphra_tktable/table.py:338-355 | the cell is a label exactly for type "l", a combobox exactly for "c" and an entry exactly for "e"; a label or entry shows the value at the descriptor's width, a combobox offers the value at width − 3 and has an item chosen (item 0) exactly when the value is non-empty |
| Widgets.CellsFrom | src/table.py:253-279 | the loop over the keys makes, in order, one cell per key from the descriptor `keys.index(key)` selects |
| Widgets.RowWidgets | build/lib/paphra_tktable/table.py:300-310 | a row window holds the S/N label, the cells in key order, `len(keys) + 2` vertical rules and a horizontal rule, all unshaded |
| Widgets.Render | build/lib/paphra_tktable/table.py:295-321 | `works()` creates one window per record at x = -2 and y = 26 * i, with that record's widgets |
| Widgets.ClickableRow | build/lib/paphra_tktable/table.py:400-401 | `_wch[1]['text']` is readable exactly when the first column is a label, and it is the record's first value |
| Matching.LastComponent | build/lib/paphra_tktable/table.py:363 | `split('.')[-1]`: a dot-free suffix of the path that follows its last dot |
| Matching.LastComponentOfChild | build/lib/paphra_tktable/table.py:380 | the parent path of a widget in window `w` ends in `w`'s name, which the comparison recovers |
| Matching.Contains | src/table.py:305 | Python's `needle in haystack` on strings; `Matching.ContainsIff` shows it holds exactly when the needle occurs at some position |
| Matching.ContainedAt | src/table.py:305 | Python's `in` holds when the name occurs at some position of the path |
| Matching.ContainsOccurs | src/table.py:305 | conversely, when `in` holds the name occurs at some position, and the returned one is the first |
| Matching.ContainsIff | src/table.py:305 | `in` holds if and only if the name occurs at some position of the path |
| Matching.ContainedBefore | src/table.py:305 | text appended after an occurrence of a name keeps it inside the path |
| Matching.ContainedAfter | src/table.py:305 | text put in front of an occurrence of a name keeps it inside the path |
| Matching.ExactImpliesContained | src/table.py:305 | a name the build copy matches is also matched by the src copy's `in` test |
| Matching.Matches | build/lib/paphra_tktable/table.py:380 | the window test of the scan: equality with the last path component (build copy) or `in` on the whole path (src copy, src/table.py:305) |
| Matching.LastWith | build/lib/paphra_tktable/table.py:405-407 | reference definition: the last record whose first value is the text, or none |
| Matching.ScanRows | build/lib/paphra_tktable/table.py:405-407 | the record loop of `_select` ends on the last matching record, or keeps the old selection when none matches |
| Matching.LastWithFront | src/table.py:320-322 | the last match in a list is the last match of its tail shifted by one, else the head |
| Matching.ScanFindsUnique | build/lib/paphra_tktable/table.py:405-407 | with pairwise different first values, record `k`'s text finds record `k` |
| TableWidget.Frames | build/lib/paphra_tktable/table.py:295-321 | the canvas holds one window per loaded record, carrying the toolkit's name for it, 26 pixels below the previous one |
| TableWidget.Valid | build/lib/paphra_tktable/table.py:277-323 | the invariant every operation keeps: one window per loaded record in order, scroll 26 per record; `selected_row` and `selected_w` are set together (as `_select`, table.py:402-411, and `add_rows`, table.py:281-282, set them); the selected record is loaded, its first value is the text `selected_w` shows, and that window is shaded |
| TableWidget.Window | build/lib/paphra_tktable/table.py:300-310 | window `i` holds the widgets drawn for record `i`, unshaded, and its second child shows the record's first value |
| TableWidget.DrawableAfterRemove | build/lib/paphra_tktable/table.py:421-424 | removing a record keeps every remaining record drawable |
| TableWidget.New | build/lib/paphra_tktable/table.py:129-187 | each argument given is used as is, each missing one becomes the demo keys, titles, 200 or 300 independently of the others; nothing is loaded or selected and the demo rows are built |
| TableWidget.Load | build/lib/paphra_tktable/table.py:270-323 | loading drops the selection and shading, keeps `sel_ind`, draws one window per record, and the scroll region is 26 per record |
| TableWidget.AddRows | build/lib/paphra_tktable/table.py:270-283 | `add_rows(None)` loads the demo rows, otherwise the given list, with no sentinel for an empty list |
| TableWidget.ShownText | build/lib/paphra_tktable/table.py:401 | `_wch[1]['text']`: the first-column value of record `j`, which `TableWidget.Window` shows is the text of window `j`'s second child |
| TableWidget.Picked | build/lib/paphra_tktable/table.py:401-411 | the placeholder text selects nothing; any other text selects a loaded record with that first value |
| TableWidget.Select | build/lib/paphra_tktable/table.py:389-411 | `_select` shades and becomes `selected_w` unless the text is the placeholder, which clears both; nothing else changes |
| TableWidget.ScanStepMatch | build/lib/paphra_tktable/table.py:380-382 | a matching window becomes `sel_ind` and `_select` decides `selected_row` and `selected_w` for it |
| TableWidget.ScanStepLit | build/lib/paphra_tktable/table.py:380-382 | one step shades the window exactly when it matches and does not show the placeholder, and touches no other window |
| TableWidget.ScanFrames | build/lib/paphra_tktable/table.py:378-387 | the `for win_ in _children` loop of `_click` from window `i` on; it keeps `Valid` and changes only the selection and shading |
| TableWidget.ScanStep | build/lib/paphra_tktable/table.py:379-383 | one iteration: a matching window is selected and becomes `sel_ind`; it keeps `Valid` and the records and windows |
| TableWidget.ScanLastMatch | build/lib/paphra_tktable/table.py:378-387 | the last matching window decides `sel_ind`, `selected_row` and `selected_w` |
| TableWidget.ScanNoMatch | src/table.py:303-311 | a scan without a matching window changes nothing |
| TableWidget.ScanShading | build/lib/paphra_tktable/table.py:378-387 | after the scan a window is shaded iff it was before or it matched without showing the placeholder |
| TableWidget.Click | build/lib/paphra_tktable/table.py:357-387 | the click clears `sel_ind`/`selected_row`, unshades `selected_w`, then the last match decides the selection; shading is as described; records, windows, configuration, `mock_rows` and its alias are unchanged |
| TableWidget.ReselectAfterDelete | build/lib/paphra_tktable/table.py:429-445 | the window at the old `sel_ind` is selected if it exists; otherwise nothing changes, `sel_ind` included |
| TableWidget.ReselectHighlight | build/lib/paphra_tktable/table.py:429-445 | after the reload, reselecting leaves at most the reselected window shaded |
| TableWidget.Delete | build/lib/paphra_tktable/table.py:413-427 | without a selection or confirmation nothing happens; otherwise the first record equal to the selection is removed, the rest keep their order (also in `mock_rows` when aliased, and the alias survives unless the list became the sentinel), it is returned, and the old `sel_ind` is reselected |
| TableWidget.GetSelected | build/lib/paphra_tktable/table.py:447-451 | the selection is always one of the loaded records |
| TableWidget.Appearance | build/lib/paphra_tktable/table.py:370-374 | a window nobody shaded looks exactly as `works()` drew it |
| TableWidget.AppearanceShading | build/lib/paphra_tktable/table.py:370-374 | a shaded window's labels are grey, and unshading any window gives back the drawn widgets |
| TableFacts.PickedOwnRecord | build/lib/paphra_tktable/table.py:401-407 | with unique, non-placeholder first values, window `k` picks record `k` |
| TableFacts.IdentifiableDrop | build/lib/paphra_tktable/table.py:421 | removing one record keeps the first values unique |
| TableFacts.OnlyTargetMatches | build/lib/paphra_tktable/table.py:378-382 | with distinct window names only the clicked window matches |
| TableFacts.ExactClickSelects | build/lib/paphra_tktable/table.py:357-387 | a build-copy click on window `k` sets `sel_ind` to `k`, selects the record its first value picks (the last record with that value), and leaves at most that window shaded |
| TableFacts.LoadClickGet | build/lib/paphra_tktable/table.py:270-451 | round trip: `add_rows(X)`, click window `k`, and `get_selected()` returns `X[k]` |
| TableFacts.LastMatchFrom | src/table.py:303-306 | if window `k` matches, a last matching window exists at `k` or after it |
| TableFacts.ContainedClickReaches | src/table.py:289-312 | the src copy's click never misses the clicked window: `sel_ind` is at or after it, and it is shaded unless it shows the placeholder (src/table.py:317-326) |
| TableFacts.DeleteSelectedWindow | build/lib/paphra_tktable/table.py:413-445 | deleting the record of window `k` removes exactly it, keeps the order, and selects the record moving into window `k` |
| TableFacts.DeleteSelectedRows | build/lib/paphra_tktable/table.py:417-422 | deleting the record of window `k` returns it and removes exactly it, keeping the order of the rest |
| TableFacts.SuccessorPicked | build/lib/paphra_tktable/table.py:405-407 | with identifiable records, once record `k` is removed the text of window `k` picks record `k + 1` |
| TableFacts.DeleteSelectedMoves | build/lib/paphra_tktable/table.py:433-445 | the record that moves into window `k` is reselected there: `sel_ind` stays `k`, it becomes `selected_row` and window `k` becomes `selected_w` |
| TableFacts.ClickThenDelete | src/table.py:347-362 | load, click window `k` and delete: record `k` is returned and gone, and its successor is selected (none after the last) |
| TableFacts.SentinelShowsPlaceholder | build/lib/paphra_tktable/table.py:112-116 | with pairwise different keys, the sentinel window shows the placeholder, so it picks no record |
| TableFacts.PlaceholderNotSelectable | build/lib/paphra_tktable/table.py:402-411 | clicking a lone placeholder window selects nothing |
| TableFacts.SentinelNotSelectable | src/table.py:314-326 | with pairwise different keys, no click selects the sentinel row |
| TableFacts.RepeatedKeySentinelSelectable | build/lib/paphra_tktable/table.py:112-119 | with the key "a" declared for two label descriptors, `check_rows` overwrites the placeholder with "", so the sentinel shows "" and a click on it selects it |
| TableFacts.DeleteOnlyRecord | build/lib/paphra_tktable/table.py:421-425 | with pairwise different keys, deleting the last record returns it, shows the sentinel and clears the selection |
| TableFacts.DeleteShortensMock | build/lib/paphra_tktable/table.py:276-278 | on the demo rows a deletion also shortens `mock_rows`, so a later `add_rows()` shows the shortened list |
| TableFacts.DefaultColumnsDrawable | build/lib/paphra_tktable/table.py:154-169 | the default keys each find a label descriptor |
| TableFacts.MockNotPlaceholder | build/lib/paphra_tktable/table.py:194-198 | no demo record shows the placeholder text |
| TableFacts.DemoDrawable | build/lib/paphra_tktable/table.py:129-198 | the demo configuration draws the demo rows, which are told apart by their first column |
| TableFacts.DemoTable | build/lib/paphra_tktable/table.py:454-457 | `Table(root)` and `add_rows()` draw 30 windows 26 pixels apart in a 780-pixel scroll region, and a click on any of them selects its record |
| TableFacts.NameTableIdentifiable | src/table.py:79-106 | a one-column "Name" table over the key "name" tells the records "A" and "B" apart |
| TableFacts.DeleteSecondExample | build/lib/paphra_tktable/table.py:413-445 | select "B" of ["A", "B"] and delete: ["A"] remains, "B" is returned, and nothing is selected |
| TableFacts.DeleteFirstExample | build/lib/paphra_tktable/table.py:413-445 | select "A" of ["A", "B"] and delete: ["B"] remains, "A" is returned, and "B" is selected |
| Findings.HostPathMatchesBoth | src/table.py:305 | the parent path ".!frame2.!canvas.!frame" ends in "!frame" and also contains "!frame2" |
| Findings.SecondWindowPathMatchesBoth | src/table.py:305 | the parent path ".!canvas.!frame2" ends in "!frame2" and also contains "!frame" |
| Findings.SubstringClickSelectsWrongRow | src/table.py:303-311 | as written: clicking the first window under a host named "!frame2" selects the second record and shades both |
| Findings.SubstringClickShadesTwoRows | src/table.py:303-311 | as written: clicking window "!frame2" also shades window "!frame", which is then not `selected_w` |
| Findings.ExactClickSelectsClickedRow | build/lib/paphra_tktable/table.py:380 | corrected: the same click, matched on the last path component, selects the first record and shades only it |

## Left out

- Thread use in `add_rows`: `Thread(target=des())` and `Thread(target=works())` call the function on the UI thread before any thread starts, so the model runs them in place.
- The confirmation dialog (`msg.askquestion`) is a boolean parameter of `TableWidget.Delete`.
- Toolkit naming of widgets is an input. Each load receives the window names the toolkit would assign.
- The parent path of the clicked widget is an input string, because the model has no widget tree.
- The header (`_create`, `_titles_works`), the scrollbar and mouse-wheel scrolling (`_mouse_wheel`) are left out. They draw and scroll; they do not change the table's state. Only `col_span` is modelled.
- Pixel sizes of the canvas (`width`, `height`) are carried in the configuration but never used.
- Tcl list splitting of a combobox's `values` option is left out. The model keeps the value string as given.
- `relief`/`borderwidth` are left out as separate options. The shaded flag of a window stands for both the grey labels and the sunken border, which `_select` and `_click` always set and clear together.
- `_shade`'s test `isinstance(_w, type(ttk.Label()))` creates a new, never placed `ttk.Label` in the default root on every iteration, so each shade or unshade leaks one widget per child of the window. The model keeps no widgets outside the table and does not model this leak; it does not affect the table's state (`Widgets.Shade`).
- The `try`/`except` around unshading `selected_w` swallows errors from an already destroyed window. Under `Valid` the window always exists, so this path is not modelled.
- `delete_row`'s `self.selected_w.destroy()` is followed by `add_rows`, which destroys every window anyway, so it is not modelled separately.
- The loop branches for `counts == len(_children)` in `_click`/`_selection` and for `counts == len(list_)` in `_select_new_after_delete` can never run, and are not modelled.
- A caller's own list is modified in place by `delete_row` (`rows_list.remove`). The model tracks this aliasing only for `mock_rows`, because the caller's variables are outside the widget.
- `setup.py` packaging is left out.
- Python dictionaries with non-string values (a combobox column holding a list) are left out. Every record maps keys to strings.

## Findings

| source | as written | input that shows it | evidently intended | confidence | as-written member | corrected member |
|---|---|---|---|---|---|---|
| src/table.py:305 | `if str(w_name) in str(parent_name)` matches every window whose name occurs anywhere in the clicked widget's parent path | records ["A", "B"] in windows "!frame" and "!frame2" of a table hosted in a frame named "!frame2"; click on row 1 (path ".!frame2.!canvas.!frame") | only the clicked window matches, as in the build copy's comparison with the last path component (`table.py:380` there): row 1 is selected and it alone is shaded | high, not executed | Findings.SubstringClickSelectsWrongRow | Findings.ExactClickSelectsClickedRow |

=== FILE: findings.dfy ===
/**
  The src copy's `_selection` decides which row window was clicked by
  testing whether the window's name occurs ANYWHERE in the clicked widget's
  parent path (`w_name in parent_name`), instead of comparing it with the
  path's last component as the build copy's `_click` does. Toolkit names
  are numbered ("!frame", "!frame2", ...), so the name of one window can
  occur in the path of another: the table's host frame, or the window
  "!frame21" containing "!frame2".
 */
module Findings {
  import opened Options
  import opened Matching
  import opened TableWidget
  import opened TableFacts

  /** The clicked label sits in window "!frame" (the first row); the table itself sits in a frame named "!frame2". */
  const HostPath: string := "." + "!frame2" + "." + "!canvas"

  /** The clicked label's parent path ends in "!frame" and also contains "!frame2", the host's name. */
  lemma HostPathMatchesBoth()
    ensures var path := HostPath + "." + "!frame";
            LastComponent(path) == "!frame" && Contains(path, "!frame") && Contains(path, "!frame2")
  {
    var path := HostPath + "." + "!frame";
    LastComponentOfChild(HostPath, "!frame");
    ExactImpliesContained(path);
    HostPathContainsHost();
  }

  /** "!frame2" is the host frame's name, at the front of the path. */
  lemma HostPathContainsHost()
    ensures Contains(HostPath + "." + "!frame", "!frame2")
  {
    assert Contains("!frame2", "!frame2");
    ContainedAfter(".", "!frame2", "!frame2");
    ContainedBefore("." + "!frame2", "." + "!canvas" + "." + "!frame", "!frame2");
    assert HostPath + "." + "!frame" == ("." + "!frame2") + ("." + "!canvas" + "." + "!frame");
  }

  /** A label of window "!frame2" has a parent path ending in "!frame2", which also contains "!frame". */
  lemma SecondWindowPathMatchesBoth()
    ensures var path := ".!canvas" + "." + "!frame2";
            LastComponent(path) == "!frame2" && Contains(path, "!frame2") && Contains(path, "!frame")
  {
    var path := ".!canvas" + "." + "!frame2";
    LastComponentOfChild(".!canvas", "!frame2");
    ExactImpliesContained(path);
    ContainedAt("!frame2", "!frame", 0);
    ContainedAfter(".!canvas" + ".", "!frame2", "!frame");
  }

  /**
    As written (substring test): a click on the first row of ["A", "B"]
    matches BOTH windows, because "!frame2" occurs in the host part of the
    path. The scan selects the second window last, so `get_selected()`
    returns "B", and both windows stay shaded although only the second is
    `selected_w`.
   */
  lemma SubstringClickSelectsWrongRow(t: Table)
    requires Identifiable(t.cfg, [RecordA, RecordB])
    ensures var t1 := AddRows(t, Some([RecordA, RecordB]), ["!frame", "!frame2"]);
            ClickServable(t1, NameContained, HostPath + "." + "!frame") &&
            var t2 := Click(t1, NameContained, HostPath + "." + "!frame");
            GetSelected(t2) == Some(RecordB) && t2.selIdx == Some(1) &&
            t2.lit[0] && t2.lit[1] && !SingleHighlight(t2)
  {
    var rows := [RecordA, RecordB];
    var names := ["!frame", "!frame2"];
    var path := HostPath + "." + "!frame";
    var t1 := AddRows(t, Some(rows), names);
    assert t1.names[0] == "!frame" && t1.names[1] == "!frame2";
    HostPathMatchesBoth();
    assert IsLastMatch(t1.names, NameContained, path, 0, 1);
    PickedOwnRecord(t1.cfg, rows, 1);
    assert Lights(t1, NameContained, path, 0) && Lights(t1, NameContained, path, 1);
  }

  /**
    Corrected (last-component comparison, as in the build copy): the same
    click selects the first window's record "A" and shades that window only.
   */
  lemma ExactClickSelectsClickedRow(t: Table)
    requires Identifiable(t.cfg, [RecordA, RecordB])
    ensures var t1 := AddRows(t, Some([RecordA, RecordB]), ["!frame", "!frame2"]);
            ClickServable(t1, ExactName, HostPath + "." + "!frame") &&
            var t2 := Click(t1, ExactName, HostPath + "." + "!frame");
            GetSelected(t2) == Some(RecordA) && t2.selIdx == Some(0) && SingleHighlight(t2)
  {
    LoadClickGet(t, Some([RecordA, RecordB]), ["!frame", "!frame2"], HostPath, 0);
  }

  /**
    As written, even with the right record: a click on the second window
    "!frame2" also matches the first window "!frame", whose name occurs in
    every path. Both windows are shaded but only the second is `selected_w`,
    so the next click unshades the second and leaves the first grey.
   */
  lemma SubstringClickShadesTwoRows(t: Table)
    requires Identifiable(t.cfg, [RecordA, RecordB])
    ensures var t1 := AddRows(t, Some([RecordA, RecordB]), ["!frame", "!frame2"]);
            ClickServable(t1, NameContained, ".!canvas" + "." + "!frame2") &&
            var t2 := Click(t1, NameContained, ".!canvas" + "." + "!frame2");
            GetSelected(t2) == Some(RecordB) && t2.selW == Some(1) && t2.lit[0] && !SingleHighlight(t2)
  {
    var rows := [RecordA, RecordB];
    var path := ".!canvas" + "." + "!frame2";
    var t1 := AddRows(t, Some(rows), ["!frame", "!frame2"]);
    assert t1.names[0] == "!frame" && t1.names[1] == "!frame2";
    SecondWindowPathMatchesBoth();
    assert IsLastMatch(t1.names, NameContained, path, 0, 1);
    PickedOwnRecord(t1.cfg, rows, 1);
    assert Lights(t1, NameContained, path, 0);
  }
}

=== FILE: layout.dfy ===
/**
  The numbers the widget hands to the toolkit's geometry managers: grid
  columns from `_sep_work`, the header's `col_span`, the canvas y offset of
  each row window and the scroll-region height.
 */
module Layout {

  /** Pixel height of one row window on the canvas. */
  const RowHeight: int := 26

  /** Every row window is created at this canvas x offset. */
  const WindowX: int := -2

  /** One grid call made by `_sep_work`: a vertical rule, or widget `index` of the list. */
  datatype Placement = Rule(column: nat) | Slot(index: nat, column: nat)

  /**
    The iterations `_c = c .. count` of `_sep_work`'s loop, entered with the
    running column `col` (0 on the first iteration, 2(c-1) afterwards).
   */
  function SepLoop(c: nat, col: nat, count: nat): (r: seq<Placement>)
    requires c <= count
    requires col == if c == 0 then 0 else 2 * (c - 1)
    ensures |r| == 2 * (count - c) + 1
    ensures forall p :: 0 <= p < |r| ==>
              r[p] == if p % 2 == 0 then Rule(2 * c + p) else Slot(c + p / 2, 2 * c + p)
    decreases count - c
  {
    var col' := if c > 0 then col + 2 else col;
    if c < count then [Rule(col'), Slot(c, col' + 1)] + SepLoop(c + 1, col', count)
    else [Rule(col')]
  }

  /** `_sep_work` over a list of `count` widgets, in call order. */
  function SepWork(count: nat): seq<Placement> {
    SepLoop(0, 0, count)
  }

  /**
    `_sep_work` puts rules at columns 0, 2, ..., 2*count and widget `c` at
    column 2c+1, so rules and widgets never share a column.
   */
  lemma SepWorkColumns(count: nat)
    ensures |SepWork(count)| == 2 * count + 1
    ensures forall c :: 0 <= c <= count ==> SepWork(count)[2 * c] == Rule(2 * c)
    ensures forall c :: 0 <= c < count ==> SepWork(count)[2 * c + 1] == Slot(c, 2 * c + 1)
  {
    var r := SepWork(count);
    forall c | 0 <= c <= count
      ensures r[2 * c] == Rule(2 * c)
    {
      assert (2 * c) % 2 == 0;
    }
    forall c | 0 <= c < count
      ensures r[2 * c + 1] == Slot(c, 2 * c + 1)
    {
      assert (2 * c + 1) % 2 == 1 && (2 * c + 1) / 2 == c;
    }
  }

  /** `col_span` computed in `_create` from the number of column descriptors. */
  function ColSpan(columns: nat): nat {
    2 * columns + 2
  }

  /**
    `col_span` counts the column descriptors (`titles`). The header holds
    the "S/N" label plus one widget per descriptor; a data row holds the
    "S/N" label plus one cell per KEY, so the lemma describes it only when
    there are as many keys as descriptors. Such a row's widgets all sit
    inside the `col_span` columns the horizontal rules span; only the
    closing vertical rule lies one column beyond, at `col_span`.
   */
  lemma RowFitsColSpan(columns: nat)
    ensures var g := SepWork(columns + 1);
            (forall p :: 0 <= p < |g| && g[p].Slot? ==> g[p].column < ColSpan(columns)) &&
            (forall p :: 0 <= p < |g| - 1 && g[p].Rule? ==> g[p].column < ColSpan(columns)) &&
            g[|g| - 1] == Rule(ColSpan(columns))
  {
  }

  /**
    The `y_cord` loop of `add_rows` after iteration `i - 1`: it starts at 0
    and grows by one row height from the second row on.
   */
  function YLoop(i: nat, y: int, n: nat): (r: seq<int>)
    requires i <= n
    requires y == if i == 0 then 0 else RowHeight * (i - 1)
    ensures |r| == n - i
    ensures forall p :: 0 <= p < |r| ==> r[p] == RowHeight * (i + p)
    decreases n - i
  {
    if i == n then []
    else
      var y' := if i > 0 then y + RowHeight else y;
      [y'] + YLoop(i + 1, y', n)
  }

  /** The y offsets of `n` row windows: row `i` sits at 26 * i. */
  function RowOffsets(n: nat): (r: seq<int>)
    ensures |r| == n && forall i :: 0 <= i < n ==> r[i] == RowHeight * i
  {
    YLoop(0, 0, n)
  }

  /** Height of the canvas scroll region for `n` rows. */
  function ScrollHeight(n: nat): int {
    n * RowHeight
  }
}

=== FILE: matching.dfy ===
/**
  How a click is resolved: which row window a clicked widget belongs to
  (by comparing toolkit path names) and which record the window's
  first-column text stands for (a scan over the loaded records).
 */
module Matching {
  import opened Options
  import opened Rows

  /**
    `path.split('.')[-1]`: the part of a toolkit path after its last dot,
    i.e. the widget's own name.
   */
  function LastComponent(path: string): (r: string)
    ensures '.' !in r
    ensures |r| <= |path| && r == path[|path| - |r|..]
    ensures |r| < |path| ==> path[|path| - |r| - 1] == '.'
  {
    if |path| == 0 || path[|path| - 1] == '.' then ""
    else LastComponent(path[..|path| - 1]) + [path[|path| - 1]]
  }

  /** The name of a child is recovered from the path `parent + "." + name`. */
  lemma {:induction false} LastComponentOfChild(parent: string, name: string)
    requires '.' !in name
    ensures LastComponent(parent + "." + name) == name
  {
    if |name| > 0 {
      var path := parent + "." + name;
      var init := name[..|name| - 1];
      assert path[..|path| - 1] == parent + "." + init;
      LastComponentOfChild(parent, init);
      assert name == init + [name[|name| - 1]];
    }
  }

  /** Python's `needle in haystack` on strings. */
  predicate Contains(haystack: string, needle: string)
    decreases |haystack|
  {
    if |needle| > |haystack| then false
    else if haystack[..|needle|] == needle then true
    else Contains(haystack[1..], needle)
  }

  /** `needle` occurs in `haystack` starting at position `i`. */
  predicate OccursAt(haystack: string, needle: string, i: nat) {
    i + |needle| <= |haystack| && haystack[i..i + |needle|] == needle
  }

  /** A string contains every string that occurs in it at some position. */
  lemma {:induction false} ContainedAt(haystack: string, needle: string, i: nat)
    requires OccursAt(haystack, needle, i)
    ensures Contains(haystack, needle)
    decreases i
  {
    if i > 0 && haystack[..|needle|] != needle {
      assert haystack[1..][i - 1..i - 1 + |needle|] == needle;
      ContainedAt(haystack[1..], needle, i - 1);
    }
  }

  /** Conversely, `Contains` holds only of a string that occurs at some position: the first one is returned. */
  lemma {:induction false} ContainsOccurs(haystack: string, needle: string) returns (i: nat)
    requires Contains(haystack, needle)
    ensures OccursAt(haystack, needle, i)
    ensures forall j :: 0 <= j < i ==> !OccursAt(haystack, needle, j)
    decreases |haystack|
  {
    if haystack[..|needle|] == needle {
      i := 0;
    } else {
      var k := ContainsOccurs(haystack[1..], needle);
      i := k + 1;
      OccursAtTail(haystack, needle, i);
      forall j | 0 <= j < i
        ensures !OccursAt(haystack, needle, j)
      {
        if j > 0 {
          OccursAtTail(haystack, needle, j);
        }
      }
    }
  }

  /** An occurrence after the first position is an occurrence in the tail, one position earlier. */
  lemma OccursAtTail(haystack: string, needle: string, j: nat)
    requires 0 < j <= |haystack|
    ensures OccursAt(haystack, needle, j) <==> OccursAt(haystack[1..], needle, j - 1)
  {
    if j + |needle| <= |haystack| {
      assert haystack[j..j + |needle|] == haystack[1..][j - 1..j - 1 + |needle|];
    }
  }

  /** Python's `in` on strings, as `Contains` models it: some position holds the needle. */
  lemma ContainsIff(haystack: string, needle: string)
    ensures Contains(haystack, needle) <==> exists i: nat :: OccursAt(haystack, needle, i)
  {
    if Contains(haystack, needle) {
      var i := ContainsOccurs(haystack, needle);
    }
    if exists i: nat :: OccursAt(haystack, needle, i) {
      var i: nat :| OccursAt(haystack, needle, i);
      ContainedAt(haystack, needle, i);
    }
  }

  /** A suffix of a string occurs in it. */
  lemma {:induction false} SuffixContained(haystack: string, needle: string)
    requires |needle| <= |haystack| && haystack[|haystack| - |needle|..] == needle
    ensures Contains(haystack, needle)
    decreases |haystack|
  {
    if haystack[..|needle|] != needle {
      assert haystack[1..][|haystack| - 1 - |needle|..] == needle;
      SuffixContained(haystack[1..], needle);
    }
  }

  /** Text appended after an occurrence keeps it. */
  lemma {:induction false} ContainedBefore(a: string, b: string, needle: string)
    requires Contains(a, needle)
    ensures Contains(a + b, needle)
    decreases |a|
  {
    assert (a + b)[..|needle|] == a[..|needle|];
    if a[..|needle|] != needle {
      assert (a + b)[1..] == a[1..] + b;
      ContainedBefore(a[1..], b, needle);
    }
  }

  /** Text put in front of an occurrence keeps it. */
  lemma {:induction false} ContainedAfter(a: string, b: string, needle: string)
    requires Contains(b, needle)
    ensures Contains(a + b, needle)
    decreases |a|
  {
    if a == [] {
      assert a + b == b;
    } else if (a + b)[..|needle|] != needle {
      assert (a + b)[1..] == a[1..] + b;
      ContainedAfter(a[1..], b, needle);
    }
  }

  /** A path contains its own last component: a window the exact comparison matches, the substring test matches too. */
  lemma ExactImpliesContained(path: string)
    ensures Contains(path, LastComponent(path))
  {
    SuffixContained(path, LastComponent(path));
  }

  /**
    How a row window's name is compared with the clicked widget's parent
    path: the build copy compares with the last path component, the src
    copy tests whether the name occurs anywhere in the path.
   */
  datatype MatchMode = ExactName | NameContained

  predicate Matches(mode: MatchMode, name: string, parentPath: string) {
    match mode
    case ExactName => LastComponent(parentPath) == name
    case NameContained => Contains(parentPath, name)
  }

  /**
    Every record has `key`. The record scan of `_select` reads only the
    first key, so it needs this one-key condition rather than `HasKeys`
    of the drawing code (every declared key in one record); a drawable
    list has both.
   */
  predicate KeyedBy(rows: seq<Row>, key: string) {
    forall j :: 0 <= j < |rows| ==> key in rows[j]
  }

  /** Reference definition: position of the last record whose `key` value is `text`. */
  function LastWith(rows: seq<Row>, key: string, text: string): (r: Option<nat>)
    requires KeyedBy(rows, key)
    ensures r.Some? ==> r.value < |rows| && rows[r.value][key] == text &&
                        forall j :: r.value < j < |rows| ==> rows[j][key] != text
    ensures r.None? ==> forall j :: 0 <= j < |rows| ==> rows[j][key] != text
  {
    if |rows| == 0 then None
    else if rows[|rows| - 1][key] == text then Some(|rows| - 1)
    else LastWith(rows[..|rows| - 1], key, text)
  }

  /**
    The record scan of `_select`: walking the records front to back, every
    record whose `key` value equals `text` overwrites the selection `acc`.
    The result is the LAST such record, or `acc` when there is none.
   */
  function ScanRows(rows: seq<Row>, key: string, text: string, acc: Option<Row>): (r: Option<Row>)
    requires KeyedBy(rows, key)
    ensures r == match LastWith(rows, key, text)
                 case Some(j) => Some(rows[j])
                 case None => acc
    decreases |rows|
  {
    if |rows| == 0 then acc
    else
      var acc' := if rows[0][key] == text then Some(rows[0]) else acc;
      var r := ScanRows(rows[1..], key, text, acc');
      LastWithFront(rows, key, text);
      r
  }

  /** Dropping the first record shifts the last match by one, unless the first record was the only match. */
  lemma LastWithFront(rows: seq<Row>, key: string, text: string)
    requires |rows| > 0 && KeyedBy(rows, key)
    ensures LastWith(rows, key, text) ==
            match LastWith(rows[1..], key, text)
            case Some(j) => Some(j + 1)
            case None => if rows[0][key] == text then Some(0) else None
  {
    var b := LastWith(rows[1..], key, text);
    if b.None? {
      forall j | 1 <= j < |rows|
        ensures rows[j][key] != text
      {
        assert rows[j] == rows[1..][j - 1];
      }
    } else {
      assert rows[b.value + 1] == rows[1..][b.value];
      forall j | b.value + 1 < j < |rows|
        ensures rows[j][key] != text
      {
        assert rows[j] == rows[1..][j - 1];
      }
    }
  }

  /** With pairwise different values under `key`, record `k`'s value finds record `k`. */
  lemma ScanFindsUnique(rows: seq<Row>, key: string, k: nat, acc: Option<Row>)
    requires KeyedBy(rows, key) && k < |rows|
    requires forall i, j :: 0 <= i < j < |rows| ==> rows[i][key] != rows[j][key]
    ensures ScanRows(rows, key, rows[k][key], acc) == Some(rows[k])
  {
    var l := LastWith(rows, key, rows[k][key]);
    assert l.Some?;
  }
}

=== FILE: options.dfy ===
/** Python's `None` versus a present value. */
module Options {

  datatype Option<T> = None | Some(value: T) {

    /** The value, or `default` when absent (Python's `x if x is not None else default`). */
    function GetOr(default: T): T {
      match this
      case Some(v) => v
      case None => default
    }
  }
}

=== FILE: rows.dfy ===
/**
  Row records, column descriptors, the "nothing found" sentinel row that
  `check_rows` substitutes for an empty list, and the built-in demo data
  (`work_on_mock` and the constructor's default columns).
 */
module Rows {
  import opened Seqs

  /** One record of the table: field key to displayed value. */
  type Row = map<string, string>

  /** A column descriptor: header `text`, character `width`, and the cell `type` letter. */
  datatype Title = Title(text: string, width: int, kind: string)

  /** First-column text of the sentinel row. */
  const Placeholder: string := "Nothing is Found!"

  /** Every title position resolves, through `titles.index`, to a key position. */
  predicate SentinelDefined(titles: seq<Title>, keys: seq<string>) {
    forall j :: 0 <= j < |titles| ==> FirstAt(titles, j) < |keys|
  }

  /**
    The dictionary `check_rows` has built after visiting the first `n` titles.
    Each title is located with `titles.index`, i.e. at its FIRST occurrence,
    so two equal descriptors write the same key twice.
   */
  function SentinelPrefix(titles: seq<Title>, keys: seq<string>, n: nat): (r: Row)
    requires n <= |titles| && SentinelDefined(titles, keys)
    ensures forall x :: x in r ==> r[x] == Placeholder || r[x] == ""
  {
    if n == 0 then map[]
    else
      var k := FirstAt(titles, n - 1);
      SentinelPrefix(titles, keys, n - 1)[keys[k] := if k == 0 then Placeholder else ""]
  }

  /** The keys written for the first `n` titles are `keys[titles.index(t)]` for each of them. */
  lemma {:induction false} SentinelPrefixKeys(titles: seq<Title>, keys: seq<string>, n: nat)
    requires n <= |titles| && SentinelDefined(titles, keys)
    ensures SentinelPrefix(titles, keys, n).Keys == WrittenKeys(titles, keys, n)
  {
    if n > 0 {
      SentinelPrefixKeys(titles, keys, n - 1);
      var k := FirstAt(titles, n - 1);
      var before := SentinelPrefix(titles, keys, n - 1);
      assert SentinelPrefix(titles, keys, n) == before[keys[k] := if k == 0 then Placeholder else ""];
      WrittenKeysStep(titles, keys, n);
    }
  }

  /** `keys[titles.index(t)]` for each of the first `n` titles `t`. */
  function WrittenKeys(titles: seq<Title>, keys: seq<string>, n: nat): set<string>
    requires n <= |titles| && SentinelDefined(titles, keys)
  {
    set j | 0 <= j < n :: keys[FirstAt(titles, j)]
  }

  lemma WrittenKeysStep(titles: seq<Title>, keys: seq<string>, n: nat)
    requires 0 < n <= |titles| && SentinelDefined(titles, keys)
    ensures WrittenKeys(titles, keys, n) == WrittenKeys(titles, keys, n - 1) + {keys[FirstAt(titles, n - 1)]}
  {
    var now := WrittenKeys(titles, keys, n);
    var earlier := WrittenKeys(titles, keys, n - 1);
    forall x | x in now
      ensures x in earlier + {keys[FirstAt(titles, n - 1)]}
    {
      var j :| 0 <= j < n && x == keys[FirstAt(titles, j)];
      if j < n - 1 {
        assert x in earlier;
      }
    }
  }

  /** The single row shown when there is nothing to show. */
  function Sentinel(titles: seq<Title>, keys: seq<string>): Row
    requires SentinelDefined(titles, keys)
  {
    SentinelPrefix(titles, keys, |titles|)
  }

  /** `check_rows`: an empty list becomes the one-row sentinel list; anything else is returned as is. */
  function CheckRows(rows: seq<Row>, titles: seq<Title>, keys: seq<string>): (r: seq<Row>)
    requires |rows| == 0 ==> SentinelDefined(titles, keys)
    ensures |r| >= 1
    ensures |rows| > 0 ==> r == rows
    ensures |rows| == 0 ==> |r| == 1 && forall x :: x in r[0] ==> r[0][x] == Placeholder || r[0][x] == ""
  {
    if |rows| == 0 then [Sentinel(titles, keys)] else rows
  }

  /**
    With distinct keys the sentinel holds the placeholder under `keys[0]` and
    the empty string under every other key it contains.
   */
  lemma {:induction false} SentinelValue(titles: seq<Title>, keys: seq<string>, n: nat, c: nat)
    requires n <= |titles| && SentinelDefined(titles, keys) && Distinct(keys)
    requires c < |keys| && keys[c] in SentinelPrefix(titles, keys, n)
    ensures SentinelPrefix(titles, keys, n)[keys[c]] == (if c == 0 then Placeholder else "")
  {
    assert n > 0;
    var k := FirstAt(titles, n - 1);
    var before := SentinelPrefix(titles, keys, n - 1);
    var v := if k == 0 then Placeholder else "";
    assert SentinelPrefix(titles, keys, n) == before[keys[k] := v];
    if keys[c] == keys[k] {
      assert c == k;
    } else {
      assert keys[c] in before;
      SentinelValue(titles, keys, n - 1, c);
    }
  }

  /**
    When the descriptors are pairwise different and there is one key per
    column, the sentinel has exactly the declared keys.
   */
  lemma SentinelKeys(titles: seq<Title>, keys: seq<string>)
    requires |titles| == |keys| && Distinct(titles)
    ensures SentinelDefined(titles, keys)
    ensures Sentinel(titles, keys).Keys == set c | 0 <= c < |keys| :: keys[c]
  {
    forall j | 0 <= j < |titles|
      ensures FirstAt(titles, j) == j
    {
      IndexOfDistinct(titles, j);
    }
    SentinelPrefixKeys(titles, keys, |titles|);
    var r := Sentinel(titles, keys);
    forall x | x in r.Keys
      ensures x in set c | 0 <= c < |keys| :: keys[c]
    {
      var j :| 0 <= j < |titles| && x == keys[FirstAt(titles, j)];
    }
    forall c | 0 <= c < |keys|
      ensures keys[c] in r.Keys
    {
      assert keys[c] == keys[FirstAt(titles, c)];
    }
  }

  /** `check_rows([])` with distinct keys and descriptors: placeholder first, blanks elsewhere. */
  lemma CheckRowsEmpty(titles: seq<Title>, keys: seq<string>)
    requires |titles| == |keys| >= 1 && Distinct(titles) && Distinct(keys)
    ensures SentinelDefined(titles, keys)
    ensures var r := CheckRows([], titles, keys);
            |r| == 1 && r[0].Keys == (set c | 0 <= c < |keys| :: keys[c]) &&
            r[0][keys[0]] == Placeholder &&
            forall c :: 1 <= c < |keys| ==> r[0][keys[c]] == ""
  {
    SentinelKeys(titles, keys);
    forall c | 0 <= c < |keys|
      ensures Sentinel(titles, keys)[keys[c]] == (if c == 0 then Placeholder else "")
    {
      SentinelValue(titles, keys, |titles|, c);
    }
  }

  // ---- decimal rendering of row numbers (Python's `str` on a non-negative int)

  function Digit(d: nat): char
    requires d < 10
  {
    "0123456789"[d]
  }

  function Decimal(n: nat): (s: string)
    ensures |s| >= 1 && (n >= 10 ==> |s| >= 2)
    decreases n
  {
    if n < 10 then [Digit(n)] else Decimal(n / 10) + [Digit(n % 10)]
  }

  /** Different numbers print differently. */
  lemma {:induction false} DecimalInjective(a: nat, b: nat)
    requires Decimal(a) == Decimal(b)
    ensures a == b
  {
    if a >= 10 && b >= 10 {
      var sa, sb := Decimal(a), Decimal(b);
      assert sa[..|sa| - 1] == Decimal(a / 10);
      assert sb[..|sb| - 1] == Decimal(b / 10);
      DecimalInjective(a / 10, b / 10);
      assert Digit(a % 10) == sa[|sa| - 1] == Digit(b % 10);
    }
  }

  // ---- the demo configuration used when the constructor gets None

  const DefaultKeys: seq<string> := ["col1", "col2", "col3", "col4"]

  const DefaultTitles: seq<Title> :=
    [Title("Column 1", 15, "l"), Title("Column 2", 15, "l"),
     Title("Column 3", 15, "l"), Title("Column 4", 15, "l")]

  const DefaultWidth: int := 200
  const DefaultHeight: int := 300
  const MockCount: nat := 30

  /** The `i`-th demo record (0-based); its text numbers the row from 1. */
  function MockRow(i: nat): Row {
    var n := Decimal(i + 1);
    map["col1" := "value of col 1 row " + n, "col2" := "value of col 2 row " + n,
        "col3" := "value of col 3 row " + n, "col4" := "value of col 4 row " + n]
  }

  /** `work_on_mock`: its loop appends demo record `i` for `i` in `range(30)`. */
  function MockRows(): seq<Row> {
    seq(MockCount, (i: int) requires 0 <= i => MockRow(i))
  }

  /**
    The demo rows carry exactly the default keys, and their first-column texts
    are pairwise different, so clicking a demo row always finds that very row.
   */
  lemma MockRowsShape()
    ensures |MockRows()| == MockCount
    ensures forall i :: 0 <= i < |MockRows()| ==> MockRows()[i].Keys == {"col1", "col2", "col3", "col4"}
    ensures forall i, j :: 0 <= i < j < |MockRows()| ==> MockRows()[i]["col1"] != MockRows()[j]["col1"]
  {
    var m := MockRows();
    forall i | 0 <= i < |m|
      ensures m[i].Keys == {"col1", "col2", "col3", "col4"}
    {
      assert m[i] == MockRow(i);
      MockRowKeys(i);
    }
    forall i, j | 0 <= i < j < |m|
      ensures m[i]["col1"] != m[j]["col1"]
    {
      assert m[i] == MockRow(i) && m[j] == MockRow(j);
      MockFirstColumnDiffers(i, j);
    }
  }

  lemma MockRowKeys(i: nat)
    ensures MockRow(i).Keys == {"col1", "col2", "col3", "col4"}
  {
  }

  lemma MockFirstColumnDiffers(i: nat, j: nat)
    requires i != j
    ensures MockRow(i)["col1"] != MockRow(j)["col1"]
  {
    var p := "value of col 1 row ";
    var a, b := p + Decimal(i + 1), p + Decimal(j + 1);
    assert MockRow(i)["col1"] == a && MockRow(j)["col1"] == b;
    if a == b {
      assert a[|p|..] == Decimal(i + 1);
      assert b[|p|..] == Decimal(j + 1);
      DecimalInjective(i + 1, j + 1);
    }
  }
}

=== FILE: seqs.dfy ===
/** The Python list operations the table relies on, over Dafny sequences. */
module Seqs {

  /** No element occurs twice. */
  predicate Distinct<T(==)>(s: seq<T>) {
    forall i, j :: 0 <= i < j < |s| ==> s[i] != s[j]
  }

  /** Position of the first element equal to `x`, as Python's `list.index`. */
  function IndexOf<T(==)>(s: seq<T>, x: T): (k: nat)
    requires x in s
    ensures k < |s| && s[k] == x
    ensures forall j :: 0 <= j < k ==> s[j] != x
  {
    if s[0] == x then 0 else 1 + IndexOf(s[1..], x)
  }

  /** In a sequence without repetitions, `index` finds the element's own position. */
  lemma IndexOfDistinct<T>(s: seq<T>, j: nat)
    requires Distinct(s) && j < |s|
    ensures IndexOf(s, s[j]) == j
  {
  }

  /** `s.index(s[j])`: where the first copy of the `j`-th element sits. */
  function FirstAt<T(==)>(s: seq<T>, j: nat): (k: nat)
    requires j < |s|
    ensures k <= j && s[k] == s[j]
  {
    IndexOf(s, s[j])
  }

  /** Python's `list.remove`: drops the first element equal to `x`. */
  function RemoveFirst<T(==)>(s: seq<T>, x: T): (r: seq<T>)
    requires x in s
    ensures |r| == |s| - 1
    ensures r == s[..IndexOf(s, x)] + s[IndexOf(s, x) + 1..]
  {
    if s[0] == x then s[1..]
    else
      var k := IndexOf(s[1..], x);
      assert s[..k + 1] == [s[0]] + s[1..][..k];
      [s[0]] + RemoveFirst(s[1..], x)
  }

  /** `list.remove` takes away exactly one copy of `x` and keeps every other element. */
  lemma RemoveFirstMultiset<T>(s: seq<T>, x: T)
    requires x in s
    ensures multiset(RemoveFirst(s, x)) + multiset{x} == multiset(s)
  {
    var k := IndexOf(s, x);
    assert s == s[..k] + [x] + s[k + 1..];
  }
}

=== FILE: table.dfy ===
/**
  The state of one `Table` widget and its operations: construction,
  `add_rows`, a click (`_click` in the build copy, `_click`/`_selection`
  in the src copy), `_select`, `delete_row`, `_select_new_after_delete`
  and `get_selected`. Every operation runs to completion on the UI thread,
  so each is a function from one state to the next.
 */
module TableWidget {
  import opened Options
  import opened Seqs
  import opened Rows
  import opened Layout
  import opened Widgets
  import opened Matching

  /** The constructor's arguments after defaults are applied. */
  datatype Config = Config(keys: seq<string>, titles: seq<Title>, width: int, height: int)

  /**
    `rows` is `rows_list` (empty before the first load); `names` are the
    toolkit names of the canvas children, the row windows, in order (their
    contents are `Frames`); `lit[i]` says row window `i` is shaded grey with a
    sunken border; `selW` is `selected_w` as a window position, `selected`
    is `selected_row` and `selIdx` is `sel_ind`. `onMock` records that
    `rows_list` is the very list object `mock_rows`, so that removing a row
    from one removes it from the other.
   */
  datatype Table = Table(
    cfg: Config,
    mock: seq<Row>,
    onMock: bool,
    rows: seq<Row>,
    names: seq<string>,
    lit: seq<bool>,
    scroll: int,
    selected: Option<Row>,
    selW: Option<nat>,
    selIdx: Option<nat>)

  /** `works()` can draw every record of `rows` under this configuration. */
  predicate Drawable(cfg: Config, rows: seq<Row>) {
    (|rows| > 0 ==> ColumnsDrawable(cfg.keys, cfg.titles)) &&
    forall i :: 0 <= i < |rows| ==> HasKeys(rows[i], cfg.keys)
  }

  /** The canvas holds one window per record and the scroll region fits them. */
  predicate Shows(cfg: Config, rows: seq<Row>, names: seq<string>, scroll: int) {
    && Drawable(cfg, rows)
    && |names| == |rows|
    && scroll == ScrollHeight(|rows|)
  }

  /** The row windows on the canvas, as `works()` drew them for the loaded records. */
  function Frames(t: Table): (fs: seq<Frame>)
    requires Shows(t.cfg, t.rows, t.names, t.scroll)
    ensures |fs| == |t.rows|
    ensures forall i :: 0 <= i < |fs| ==> fs[i].name == t.names[i] && fs[i].y == RowHeight * i
  {
    Render(t.cfg.keys, t.cfg.titles, t.rows, t.names)
  }

  /** Removing a record keeps the rest drawable. */
  lemma DrawableAfterRemove(cfg: Config, rows: seq<Row>, x: Row)
    requires Drawable(cfg, rows) && x in rows
    ensures Drawable(cfg, RemoveFirst(rows, x))
  {
    var rest := RemoveFirst(rows, x);
    var k := IndexOf(rows, x);
    forall i | 0 <= i < |rest|
      ensures HasKeys(rest[i], cfg.keys)
    {
      if i < k {
        assert rest[i] == rows[i];
      } else {
        assert rest[i] == rows[i + 1];
      }
    }
  }

  /**
    The states the widget can be in: the canvas shows exactly the loaded
    records in order, the scroll region fits them, `selected_row` and
    `selected_w` are set together, the selected record is one of them, its
    first value is the text `selected_w` shows and that window is shaded,
    and the mock alias is honoured.
   */
  predicate Valid(t: Table) {
    && Shows(t.cfg, t.rows, t.names, t.scroll)
    && |t.lit| == |t.rows|
    && (t.selected.Some? <==> t.selW.Some?)
    && (t.selected.Some? ==> t.selected.value in t.rows)
    && (t.selW.Some? ==> t.selW.value < |t.lit| && t.lit[t.selW.value] && FirstIsLabel(t.cfg.keys, t.cfg.titles))
    && (t.selW.Some? ==> t.selected.value[t.cfg.keys[0]] == ShownText(t.cfg, t.rows, t.selW.value))
    && (t.onMock ==> t.rows == t.mock)
  }

  /** Window `i` is the one `works()` drew for record `i`, unshaded. */
  lemma Window(t: Table, i: nat)
    requires Valid(t) && i < |t.rows|
    ensures ColumnsDrawable(t.cfg.keys, t.cfg.titles) && HasKeys(t.rows[i], t.cfg.keys)
    ensures Frames(t)[i].widgets == RowWidgets(t.cfg.keys, t.cfg.titles, t.rows[i], i)
    ensures Unshaded(Frames(t)[i].widgets)
    ensures FirstIsLabel(t.cfg.keys, t.cfg.titles) ==> Frames(t)[i].widgets[1].text == ShownText(t.cfg, t.rows, i)
  {
    ClickableRow(t.cfg.keys, t.cfg.titles, t.rows[i], i);
  }

  /** `r` shows the same records in the same windows as `t`; only the selection may differ. */
  predicate SameContents(r: Table, t: Table) {
    r.cfg == t.cfg && r.mock == t.mock && r.onMock == t.onMock &&
    r.rows == t.rows && r.names == t.names && r.scroll == t.scroll
  }

  /** At most one window is shaded, and it is the one `selected_w` refers to. */
  predicate SingleHighlight(t: Table) {
    forall k :: 0 <= k < |t.lit| && t.lit[k] ==> t.selW == Some(k)
  }

  /** `Table(container, _keys_, titles, width, height)`: missing arguments become the demo configuration. */
  function New(keys: Option<seq<string>>, titles: Option<seq<Title>>,
               width: Option<int>, height: Option<int>): (t: Table)
    ensures Valid(t) && SingleHighlight(t)
    ensures t.rows == [] && t.names == [] && t.selected.None? && t.selIdx.None?
    ensures t.mock == MockRows() && !t.onMock
    ensures t.cfg.keys == (if keys.Some? then keys.value else DefaultKeys)
    ensures t.cfg.titles == (if titles.Some? then titles.value else DefaultTitles)
    ensures t.cfg.width == (if width.Some? then width.value else DefaultWidth)
    ensures t.cfg.height == (if height.Some? then height.value else DefaultHeight)
  {
    var cfg := Config(keys.GetOr(DefaultKeys), titles.GetOr(DefaultTitles),
                      width.GetOr(DefaultWidth), height.GetOr(DefaultHeight));
    Table(cfg, MockRows(), false, [], [], [], 0, None, None, None)
  }

  /**
    The common part of every load: drop the selection, destroy the old
    windows, size the scroll region and draw one window per record.
    `sel_ind` is NOT reset.
   */
  function Load(t: Table, rows: seq<Row>, onMock: bool, names: seq<string>): (r: Table)
    requires Drawable(t.cfg, rows) && |names| == |rows| && (onMock ==> rows == t.mock)
    ensures Valid(r) && SingleHighlight(r)
    ensures r.rows == rows && r.cfg == t.cfg && r.mock == t.mock && r.onMock == onMock
    ensures r.selected.None? && r.selW.None? && r.selIdx == t.selIdx
    ensures forall k :: 0 <= k < |r.lit| ==> !r.lit[k]
    ensures r.names == names && r.scroll == RowHeight * |rows|
  {
    t.(rows := rows, onMock := onMock, names := names, lit := seq(|rows|, _ => false),
       scroll := ScrollHeight(|rows|), selected := None, selW := None)
  }

  /**
    `add_rows(rows_list)`: `None` loads the demo rows (the same list object).
    No sentinel is substituted here: an empty list draws no window at all.
   */
  function AddRows(t: Table, arg: Option<seq<Row>>, names: seq<string>): (r: Table)
    requires Drawable(t.cfg, arg.GetOr(t.mock)) && |names| == |arg.GetOr(t.mock)|
    ensures Valid(r) && SingleHighlight(r)
    ensures r.rows == (if arg.Some? then arg.value else t.mock)
    ensures r.selected.None? && r.selW.None? && r.selIdx == t.selIdx
    ensures r.names == names && r.scroll == RowHeight * |r.rows|
    ensures |Frames(r)| == |r.rows| && forall i :: 0 <= i < |r.rows| ==> Frames(r)[i].y == RowHeight * i
  {
    Load(t, arg.GetOr(t.mock), arg.None?, names)
  }

  /** The first-column text shown in window `j`. */
  function ShownText(cfg: Config, rows: seq<Row>, j: nat): string
    requires Drawable(cfg, rows) && FirstIsLabel(cfg.keys, cfg.titles) && j < |rows|
  {
    rows[j][cfg.keys[0]]
  }

  /**
    The record `_select` settles on for window `j`: none for the sentinel
    text, otherwise the last record whose first value equals the shown text.
   */
  function Picked(cfg: Config, rows: seq<Row>, j: nat): (r: Option<Row>)
    requires Drawable(cfg, rows) && FirstIsLabel(cfg.keys, cfg.titles) && j < |rows|
    ensures ShownText(cfg, rows, j) == Placeholder <==> r.None?
    ensures r.Some? ==> r.value in rows && r.value[cfg.keys[0]] == ShownText(cfg, rows, j)
  {
    if ShownText(cfg, rows, j) == Placeholder then None
    else
      var l := LastWith(rows, cfg.keys[0], ShownText(cfg, rows, j));
      assert l.Some?;
      Some(rows[l.value])
  }

  /** Window `j` is shaded by a click on `path`: it matches and does not show the sentinel text. */
  predicate Lights(t: Table, mode: MatchMode, path: string, j: nat)
    requires Drawable(t.cfg, t.rows) && j < |t.rows| == |t.names|
  {
    Matches(mode, t.names[j], path) && FirstIsLabel(t.cfg.keys, t.cfg.titles) &&
    ShownText(t.cfg, t.rows, j) != Placeholder
  }

  /**
    `_select(widget)` on window `i`: read the first cell's text (the
    label `Window` shows to carry `ShownText`); the
    sentinel text clears the selection, anything else shades the window,
    makes it `selected_w` and scans the records for the matching one.
    The previously shaded window is not touched here.
   */
  function Select(t: Table, i: nat): (r: Table)
    requires Valid(t) && i < |t.names| && FirstIsLabel(t.cfg.keys, t.cfg.titles)
    ensures Valid(r)
    ensures SameContents(r, t) && r.selIdx == t.selIdx
    ensures |r.lit| == |t.lit|
    ensures r.selected == Picked(t.cfg, t.rows, i)
    ensures ShownText(t.cfg, t.rows, i) == Placeholder ==> r.selW.None? && r.lit == t.lit
    ensures ShownText(t.cfg, t.rows, i) != Placeholder ==> r.selW == Some(i) && r.lit == t.lit[i := true]
  {
    var text := ShownText(t.cfg, t.rows, i);
    if text != Placeholder then
      t.(selW := Some(i), lit := t.lit[i := true],
         selected := ScanRows(t.rows, t.cfg.keys[0], text, t.selected))
    else
      t.(selected := None, selW := None)
  }

  /** A click on `path` can be served: if any window matches, `_select` can read its first cell. */
  predicate ClickServable(t: Table, mode: MatchMode, path: string) {
    FirstIsLabel(t.cfg.keys, t.cfg.titles) ||
    forall j :: 0 <= j < |t.names| ==> !Matches(mode, t.names[j], path)
  }

  /** `j` is the last window at or after `i` whose name matches `path`. */
  predicate IsLastMatch(names: seq<string>, mode: MatchMode, path: string, i: nat, j: nat) {
    i <= j < |names| && Matches(mode, names[j], path) &&
    forall k :: j < k < |names| ==> !Matches(mode, names[k], path)
  }

  /**
    The scan over the canvas children from position `i` on: every window
    whose name matches is selected in turn and `sel_ind` is set to its
    position, so the last match decides `sel_ind` and the selection, while
    every matching window that is not the sentinel stays shaded.
   */
  function ScanFrames(t: Table, mode: MatchMode, path: string, i: nat): (r: Table)
    requires Valid(t) && i <= |t.names| && ClickServable(t, mode, path)
    ensures Valid(r)
    ensures SameContents(r, t)
    ensures |r.lit| == |t.lit|
    decreases |t.names| - i
  {
    if i == |t.names| then t
    else
      var t' := ScanStep(t, mode, path, i);
      assert ClickServable(t', mode, path);
      ScanFrames(t', mode, path, i + 1)
  }

  /** One iteration of the scan: a matching window is selected and becomes `sel_ind`. */
  function ScanStep(t: Table, mode: MatchMode, path: string, i: nat): (r: Table)
    requires Valid(t) && i < |t.names| && ClickServable(t, mode, path)
    ensures Valid(r)
    ensures SameContents(r, t)
    ensures |r.lit| == |t.lit|
  {
    if Matches(mode, t.names[i], path) then Select(t, i).(selIdx := Some(i)) else t
  }

  /** Without a matching window from `i` on, the scan changes nothing. */
  lemma {:induction false} ScanNoMatch(t: Table, mode: MatchMode, path: string, i: nat)
    requires Valid(t) && i <= |t.names| && ClickServable(t, mode, path)
    requires forall j :: i <= j < |t.names| ==> !Matches(mode, t.names[j], path)
    ensures ScanFrames(t, mode, path, i) == t
    decreases |t.names| - i
  {
    if i < |t.names| {
      assert ScanStep(t, mode, path, i) == t;
      assert ScanFrames(t, mode, path, i) == ScanFrames(t, mode, path, i + 1);
      ScanNoMatch(t, mode, path, i + 1);
    }
  }

  /**
    The last matching window decides `sel_ind`, the selected record and
    `selected_w`, whatever the earlier matches did.
   */
  lemma {:induction false} ScanLastMatch(t: Table, mode: MatchMode, path: string, i: nat, j: nat)
    requires Valid(t) && i <= |t.names| && ClickServable(t, mode, path)
    requires IsLastMatch(t.names, mode, path, i, j)
    ensures FirstIsLabel(t.cfg.keys, t.cfg.titles)
    ensures var r := ScanFrames(t, mode, path, i);
            r.selIdx == Some(j) && r.selected == Picked(t.cfg, t.rows, j) &&
            r.selW == (if ShownText(t.cfg, t.rows, j) == Placeholder then None else Some(j))
    decreases |t.names| - i
  {
    var t' := ScanStep(t, mode, path, i);
    assert ScanFrames(t, mode, path, i) == ScanFrames(t', mode, path, i + 1);
    if j == i {
      ScanStepMatch(t, mode, path, i);
      ScanNoMatch(t', mode, path, i + 1);
    } else {
      assert IsLastMatch(t'.names, mode, path, i + 1, j);
      ScanLastMatch(t', mode, path, i + 1, j);
    }
  }

  /** A matching window makes the step select it. */
  lemma ScanStepMatch(t: Table, mode: MatchMode, path: string, i: nat)
    requires Valid(t) && i < |t.names| && ClickServable(t, mode, path)
    requires Matches(mode, t.names[i], path)
    ensures FirstIsLabel(t.cfg.keys, t.cfg.titles)
    ensures var r := ScanStep(t, mode, path, i);
            r.selIdx == Some(i) && r.selected == Picked(t.cfg, t.rows, i) &&
            r.selW == (if ShownText(t.cfg, t.rows, i) == Placeholder then None else Some(i))
  {
  }

  /** After the scan, a window is shaded iff it was before or it matched from `i` on without showing the sentinel. */
  lemma {:induction false} ScanShading(t: Table, mode: MatchMode, path: string, i: nat, k: nat)
    requires Valid(t) && i <= |t.names| && ClickServable(t, mode, path) && k < |t.lit|
    ensures ScanFrames(t, mode, path, i).lit[k] == (t.lit[k] || (i <= k && Lights(t, mode, path, k)))
    decreases |t.names| - i
  {
    if i < |t.names| {
      var t' := ScanStep(t, mode, path, i);
      ScanStepLit(t, mode, path, i);
      assert ScanFrames(t, mode, path, i) == ScanFrames(t', mode, path, i + 1);
      ScanShading(t', mode, path, i + 1, k);
      assert Lights(t', mode, path, k) == Lights(t, mode, path, k);
      if k == i {
        assert t'.lit[k] == (t.lit[k] || Lights(t, mode, path, k));
      } else {
        assert t'.lit[k] == t.lit[k];
      }
    } else {
      assert ScanFrames(t, mode, path, i) == t;
    }
  }

  /** One step shades window `i` exactly when it lights up, and leaves the other windows alone. */
  lemma ScanStepLit(t: Table, mode: MatchMode, path: string, i: nat)
    requires Valid(t) && i < |t.names| && ClickServable(t, mode, path)
    ensures var r := ScanStep(t, mode, path, i);
            ClickServable(r, mode, path) && r.cfg == t.cfg && r.rows == t.rows && r.names == t.names &&
            r.lit == (if Lights(t, mode, path, i) then t.lit[i := true] else t.lit)
  {
  }

  /** The scan from the first window, summarised. */
  lemma ScanFacts(t: Table, mode: MatchMode, path: string)
    requires Valid(t) && ClickServable(t, mode, path)
    ensures var r := ScanFrames(t, mode, path, 0);
            ((forall j :: 0 <= j < |t.names| ==> !Matches(mode, t.names[j], path)) ==> r == t) &&
            (forall j: nat :: IsLastMatch(t.names, mode, path, 0, j) ==>
               FirstIsLabel(t.cfg.keys, t.cfg.titles) && r.selIdx == Some(j) &&
               r.selected == Picked(t.cfg, t.rows, j) &&
               r.selW == (if ShownText(t.cfg, t.rows, j) == Placeholder then None else Some(j))) &&
            (forall k :: 0 <= k < |t.lit| ==> r.lit[k] == (t.lit[k] || Lights(t, mode, path, k)))
  {
    if forall j :: 0 <= j < |t.names| ==> !Matches(mode, t.names[j], path) {
      ScanNoMatch(t, mode, path, 0);
    }
    forall j: nat | IsLastMatch(t.names, mode, path, 0, j)
      ensures FirstIsLabel(t.cfg.keys, t.cfg.titles)
      ensures var r := ScanFrames(t, mode, path, 0);
              r.selIdx == Some(j) && r.selected == Picked(t.cfg, t.rows, j) &&
              r.selW == (if ShownText(t.cfg, t.rows, j) == Placeholder then None else Some(j))
    {
      ScanLastMatch(t, mode, path, 0, j);
    }
    forall k | 0 <= k < |t.lit|
      ensures ScanFrames(t, mode, path, 0).lit[k] == (t.lit[k] || Lights(t, mode, path, k))
    {
      ScanShading(t, mode, path, 0, k);
    }
  }

  /**
    A button release on a widget whose parent window has path `path`:
    `sel_ind` and `selected_row` are reset, the shaded window (if any) is
    unshaded, then the children are scanned. `ExactName` is the build copy's
    `_click`, `NameContained` the src copy's `_selection`.
   */
  function Click(t: Table, mode: MatchMode, path: string): (r: Table)
    requires Valid(t) && ClickServable(t, mode, path)
    ensures Valid(r)
    ensures r.rows == t.rows && r.names == t.names && r.cfg == t.cfg && r.mock == t.mock
    ensures SameContents(r, t)
    ensures (forall j :: 0 <= j < |t.names| ==> !Matches(mode, t.names[j], path)) ==>
              r.selIdx.None? && r.selected.None? && r.selW.None?
    ensures forall j: nat :: IsLastMatch(t.names, mode, path, 0, j) ==>
              FirstIsLabel(t.cfg.keys, t.cfg.titles) && r.selIdx == Some(j) && r.selected == Picked(t.cfg, t.rows, j) &&
              r.selW == (if ShownText(t.cfg, t.rows, j) == Placeholder then None else Some(j))
    ensures |r.lit| == |t.lit|
    ensures forall k :: 0 <= k < |t.lit| ==>
              r.lit[k] == ((t.lit[k] && t.selW != Some(k)) || Lights(t, mode, path, k))
  {
    var t0 := t.(selIdx := None, selected := None);
    var t1 := if t0.selW.Some? then t0.(lit := t0.lit[t0.selW.value := false], selW := None) else t0;
    assert t1.rows == t.rows && t1.names == t.names && t1.cfg == t.cfg;
    assert forall k :: 0 <= k < |t.lit| ==> t1.lit[k] == (t.lit[k] && t.selW != Some(k));
    assert forall k :: 0 <= k < |t.lit| ==> Lights(t1, mode, path, k) == Lights(t, mode, path, k);
    ScanFacts(t1, mode, path);
    ScanFrames(t1, mode, path, 0)
  }

  /**
    `_select_new_after_delete`: if the old `sel_ind` is still a window
    position, select that window (the sentinel window gives no selection);
    otherwise nothing changes, `sel_ind` included. The loop's branch for
    `counts == len(list_)` can never run and is not modelled.
   */
  function ReselectAfterDelete(t: Table): (r: Table)
    requires Valid(t)
    requires t.selIdx.Some? && t.selIdx.value < |t.names| ==> FirstIsLabel(t.cfg.keys, t.cfg.titles)
    ensures Valid(r)
    ensures SameContents(r, t) && r.selIdx == t.selIdx
    ensures t.selIdx.Some? && t.selIdx.value < |t.names| ==>
              r.selected == Picked(t.cfg, t.rows, t.selIdx.value) &&
              r.selW == (if ShownText(t.cfg, t.rows, t.selIdx.value) == Placeholder then None else t.selIdx)
    ensures !(t.selIdx.Some? && t.selIdx.value < |t.names|) ==> r == t
  {
    if t.selIdx.Some? && t.selIdx.value < |t.names| then Select(t, t.selIdx.value) else t
  }

  /** Reselecting on a freshly loaded table shades at most the reselected window. */
  lemma ReselectHighlight(t: Table)
    requires Valid(t)
    requires t.selIdx.Some? && t.selIdx.value < |t.names| ==> FirstIsLabel(t.cfg.keys, t.cfg.titles)
    requires forall k :: 0 <= k < |t.lit| ==> !t.lit[k]
    ensures SingleHighlight(ReselectAfterDelete(t))
  {
    var r := ReselectAfterDelete(t);
    if t.selIdx.Some? && t.selIdx.value < |t.names| {
      var i := t.selIdx.value;
      assert r == Select(t, i);
      if ShownText(t.cfg, t.rows, i) == Placeholder {
        assert r.lit == t.lit;
      } else {
        assert r.lit == t.lit[i := true] && r.selW == Some(i);
        assert forall k :: 0 <= k < |r.lit| && k != i ==> !r.lit[k];
      }
    }
  }

  /**
    What a confirmed deletion needs from the toolkit and the configuration:
    names for the windows of the reload, and, when the last record goes,
    a sentinel row `works()` can draw.
   */
  predicate DeleteFits(t: Table, names: seq<string>) {
    && |names| == (if |t.rows| <= 1 then 1 else |t.rows| - 1)
    && (|t.rows| <= 1 ==> SentinelDefined(t.cfg.titles, t.cfg.keys) &&
                          Drawable(t.cfg, [Sentinel(t.cfg.titles, t.cfg.keys)]))
  }

  /**
    `delete_row()` with the answer to the confirmation dialog as `confirm`.
    Without a selection, or when declined, nothing happens and `None` is
    returned. Otherwise the first record equal to the selection is removed
    from `rows_list` (and so from `mock_rows` when they are one list), the
    result goes through `check_rows` and is reloaded, the window at the old
    `sel_ind` is reselected, and the removed record is returned.
   */
  function Delete(t: Table, confirm: bool, names: seq<string>): (res: (Table, Option<Row>))
    requires Valid(t)
    requires t.selected.Some? && confirm ==> DeleteFits(t, names)
    ensures Valid(res.0)
    ensures res.1.Some? <==> t.selected.Some? && confirm
    ensures res.1.None? ==> res.0 == t
    ensures res.1.Some? ==> res.1 == t.selected && res.1.value in t.rows
    ensures res.1.Some? && |t.rows| > 1 ==>
              res.0.rows == RemoveFirst(t.rows, res.1.value) &&
              multiset(res.0.rows) + multiset{res.1.value} == multiset(t.rows)
    ensures t.selected.Some? && confirm && |t.rows| == 1 ==>
              res.0.rows == [Sentinel(t.cfg.titles, t.cfg.keys)]
    ensures t.selected.Some? && confirm ==>
              res.0.selIdx == t.selIdx && res.0.cfg == t.cfg &&
              res.0.mock == (if t.onMock then RemoveFirst(t.rows, t.selected.value) else t.mock) &&
              res.0.onMock == (t.onMock && |t.rows| > 1) && res.0.names == names
    ensures t.selected.Some? && confirm && t.selIdx.Some? && t.selIdx.value < |res.0.rows| ==>
              FirstIsLabel(t.cfg.keys, t.cfg.titles) &&
              res.0.selected == Picked(res.0.cfg, res.0.rows, t.selIdx.value) &&
              res.0.selW == (if ShownText(res.0.cfg, res.0.rows, t.selIdx.value) == Placeholder then None else t.selIdx)
    ensures t.selected.Some? && confirm && !(t.selIdx.Some? && t.selIdx.value < |res.0.rows|) ==>
              res.0.selected.None? && res.0.selW.None?
    ensures t.selected.Some? && confirm ==> SingleHighlight(res.0)
  {
    if t.selected.None? || !confirm then (t, None)
    else
      var gone := t.selected.value;
      var rest := RemoveFirst(t.rows, gone);
      RemoveFirstMultiset(t.rows, gone);
      DrawableAfterRemove(t.cfg, t.rows, gone);
      var shown := CheckRows(rest, t.cfg.titles, t.cfg.keys);
      var t1 := t.(mock := if t.onMock then rest else t.mock);
      var t2 := Load(t1, shown, t.onMock && |rest| > 0, names);
      ReselectHighlight(t2);
      var r := ReselectAfterDelete(t2);
      assert r.cfg == t.cfg && r.rows == shown && r.selIdx == t.selIdx;
      (r, Some(gone))
  }

  /** `get_selected()`: the selected record, always one of the loaded records. */
  function GetSelected(t: Table): (r: Option<Row>)
    requires Valid(t)
    ensures r.Some? ==> r.value in t.rows
  {
    t.selected
  }

  /**
    How window `i` looks: a shaded window shows its labels grey (and is
    drawn sunken); unshading it with `_shade(..., None)` restores exactly
    the widgets `works()` drew.
   */
  function Appearance(t: Table, i: nat): (ws: seq<Widget>)
    requires Valid(t) && i < |t.names|
    ensures |ws| == |Frames(t)[i].widgets|
    ensures !t.lit[i] ==> ws == Frames(t)[i].widgets
  {
    var drawn := Frames(t)[i].widgets;
    if t.lit[i] then Shade(drawn, Some(SelectedColour)) else drawn
  }

  /** A shaded window shows every label grey, and unshading any window gives back what `works()` drew. */
  lemma AppearanceShading(t: Table, i: nat)
    requires Valid(t) && i < |t.names|
    ensures var ws := Appearance(t, i);
            (t.lit[i] ==> forall p :: 0 <= p < |ws| && ws[p].Label? ==> ws[p].background == SelectedColour) &&
            Shade(ws, None) == Frames(t)[i].widgets
  {
    Window(t, i);
    var drawn := Frames(t)[i].widgets;
    var ws := Appearance(t, i);
    if t.lit[i] {
      assert ws == Shade(drawn, Some(SelectedColour));
      ShadeUndo(drawn, Some(SelectedColour));
      ShadeColours(drawn, SelectedColour);
    } else {
      assert ws == drawn;
      UnshadeUnshaded(drawn);
    }
  }
}

=== FILE: table_facts.dfy ===
/**
  Properties that relate several operations of the table: a click on a row
  selects that row, a load followed by a click gives back the clicked
  record, a deletion removes exactly the selected record and selects the
  record that moved into its place, and the demo table.
 */
module TableFacts {
  import opened Options
  import opened Seqs
  import opened Rows
  import opened Widgets
  import opened Matching
  import opened TableWidget

  /**
    Every record can be told apart by its first-column text, and none shows
    the placeholder text: a window's text then stands for its own record.
   */
  predicate Identifiable(cfg: Config, rows: seq<Row>) {
    && Drawable(cfg, rows)
    && FirstIsLabel(cfg.keys, cfg.titles)
    && (forall i :: 0 <= i < |rows| ==> rows[i][cfg.keys[0]] != Placeholder)
    && (forall i, j :: 0 <= i < j < |rows| ==> rows[i][cfg.keys[0]] != rows[j][cfg.keys[0]])
  }

  /** The toolkit names of the windows are pairwise different child names (no dot). */
  predicate GoodNames(names: seq<string>) {
    Distinct(names) && forall i :: 0 <= i < |names| ==> '.' !in names[i]
  }

  /** With identifiable records, window `k` picks record `k`. */
  lemma PickedOwnRecord(cfg: Config, rows: seq<Row>, k: nat)
    requires Identifiable(cfg, rows) && k < |rows|
    ensures Picked(cfg, rows, k) == Some(rows[k])
  {
    var l := LastWith(rows, cfg.keys[0], rows[k][cfg.keys[0]]);
    assert l.Some?;
  }

  /** Dropping record `k` keeps the rest identifiable. */
  lemma IdentifiableDrop(cfg: Config, rows: seq<Row>, k: nat)
    requires Identifiable(cfg, rows) && k < |rows|
    ensures Identifiable(cfg, rows[..k] + rows[k + 1..])
  {
    var rest := rows[..k] + rows[k + 1..];
    assert forall i :: 0 <= i < |rest| ==> rest[i] == rows[if i < k then i else i + 1];
  }

  /** Identifiable records are pairwise different. */
  lemma IdentifiableDistinct(cfg: Config, rows: seq<Row>)
    requires Identifiable(cfg, rows)
    ensures Distinct(rows)
  {
  }

  /** With pairwise different names, only window `k` matches a path that ends in its name. */
  lemma OnlyTargetMatches(t: Table, parent: string, k: nat)
    requires Valid(t) && Distinct(t.names) && k < |t.names| && '.' !in t.names[k]
    ensures IsLastMatch(t.names, ExactName, parent + "." + t.names[k], 0, k)
    ensures forall m :: 0 <= m < |t.rows| && Lights(t, ExactName, parent + "." + t.names[k], m) ==> m == k
  {
    LastComponentOfChild(parent, t.names[k]);
    assert forall m :: 0 <= m < |t.names| && m != k ==> t.names[m] != t.names[k];
  }

  /**
    A click whose parent path ends in the name of window `k` (build copy,
    names pairwise different) selects window `k`: `sel_ind` is `k`, the
    record is the one its text picks, and only that window stays shaded.
   */
  lemma ExactClickSelects(t: Table, parent: string, k: nat)
    requires Valid(t) && SingleHighlight(t) && FirstIsLabel(t.cfg.keys, t.cfg.titles)
    requires Distinct(t.names) && k < |t.names| && '.' !in t.names[k]
    ensures ClickServable(t, ExactName, parent + "." + t.names[k])
    ensures var r := Click(t, ExactName, parent + "." + t.names[k]);
            r.selIdx == Some(k) && r.selected == Picked(t.cfg, t.rows, k) &&
            r.selW == (if ShownText(t.cfg, t.rows, k) == Placeholder then None else Some(k)) &&
            SingleHighlight(r)
  {
    var path := parent + "." + t.names[k];
    OnlyTargetMatches(t, parent, k);
    var r := Click(t, ExactName, path);
    assert r.selW == (if ShownText(t.cfg, t.rows, k) == Placeholder then None else Some(k));
    forall m | 0 <= m < |r.lit| && r.lit[m]
      ensures r.selW == Some(m)
    {
      assert r.lit[m] == ((t.lit[m] && t.selW != Some(m)) || Lights(t, ExactName, path, m));
      assert !(t.lit[m] && t.selW != Some(m));
      assert m == k && ShownText(t.cfg, t.rows, k) != Placeholder;
    }
  }

  /**
    Round trip: load records (given, or the demo rows for `None`), click the
    window of record `k` (the clicked widget's parent path is some path
    followed by the window's name), and `get_selected()` returns record `k`.
   */
  lemma LoadClickGet(t: Table, arg: Option<seq<Row>>, names: seq<string>, parent: string, k: nat)
    requires Identifiable(t.cfg, arg.GetOr(t.mock)) && |names| == |arg.GetOr(t.mock)| && GoodNames(names)
    requires k < |names|
    ensures var t1 := AddRows(t, arg, names);
            ClickServable(t1, ExactName, parent + "." + names[k]) &&
            var t2 := Click(t1, ExactName, parent + "." + names[k]);
            GetSelected(t2) == Some(arg.GetOr(t.mock)[k]) && t2.selIdx == Some(k) && t2.selW == Some(k) &&
            SingleHighlight(t2)
  {
    var t1 := AddRows(t, arg, names);
    assert t1.names == names;
    ExactClickSelects(t1, parent, k);
    PickedOwnRecord(t1.cfg, t1.rows, k);
  }

  /** Some window at or after `k` is the last one matching, when window `k` matches. */
  lemma {:induction false} LastMatchFrom(names: seq<string>, mode: MatchMode, path: string, k: nat) returns (j: nat)
    requires k < |names| && Matches(mode, names[k], path)
    ensures k <= j && IsLastMatch(names, mode, path, 0, j)
    decreases |names| - k
  {
    if forall m :: k < m < |names| ==> !Matches(mode, names[m], path) {
      j := k;
    } else {
      var m :| k < m < |names| && Matches(mode, names[m], path);
      j := LastMatchFrom(names, mode, path, m);
    }
  }

  /**
    The src copy's substring test never misses the clicked window: `sel_ind`
    ends at that window or a later one, and the clicked window is shaded
    unless it shows the placeholder.
   */
  lemma ContainedClickReaches(t: Table, parent: string, k: nat)
    requires Valid(t) && FirstIsLabel(t.cfg.keys, t.cfg.titles) && k < |t.names|
    requires '.' !in t.names[k]
    ensures ClickServable(t, NameContained, parent + "." + t.names[k])
    ensures var r := Click(t, NameContained, parent + "." + t.names[k]);
            r.selIdx.Some? && k <= r.selIdx.value < |t.names| &&
            (ShownText(t.cfg, t.rows, k) != Placeholder ==> r.lit[k])
  {
    var path := parent + "." + t.names[k];
    LastComponentOfChild(parent, t.names[k]);
    ExactImpliesContained(path);
    var j := LastMatchFrom(t.names, NameContained, path, k);
    assert Lights(t, NameContained, path, k) <==> ShownText(t.cfg, t.rows, k) != Placeholder;
  }

  /**
    Deleting the record selected in window `k`: exactly that record leaves
    the list, the others keep their order, the record that moves up into
    window `k` becomes selected, and when the last window was deleted
    nothing is selected.
   */
  lemma DeleteSelectedWindow(t: Table, k: nat, names: seq<string>)
    requires Valid(t) && Identifiable(t.cfg, t.rows) && 1 < |t.rows| && k < |t.rows|
    requires t.selected == Some(t.rows[k]) && t.selIdx == Some(k) && |names| == |t.rows| - 1
    ensures var (r, gone) := Delete(t, true, names);
            gone == Some(t.rows[k]) && r.rows == t.rows[..k] + t.rows[k + 1..] &&
            (k + 1 < |t.rows| ==> r.selected == Some(t.rows[k + 1]) && r.selIdx == Some(k) && r.selW == Some(k)) &&
            (k + 1 == |t.rows| ==> r.selected.None? && r.selW.None?) &&
            SingleHighlight(r)
  {
    DeleteSelectedRows(t, k, names);
    if k + 1 < |t.rows| {
      SuccessorPicked(t.cfg, t.rows, k);
      DeleteSelectedMoves(t, k, names);
    }
  }

  /** Deleting the record of window `k` removes exactly it and returns it. */
  lemma DeleteSelectedRows(t: Table, k: nat, names: seq<string>)
    requires Valid(t) && Identifiable(t.cfg, t.rows) && 1 < |t.rows| && k < |t.rows|
    requires t.selected == Some(t.rows[k]) && t.selIdx == Some(k) && |names| == |t.rows| - 1
    ensures var (r, gone) := Delete(t, true, names);
            gone == Some(t.rows[k]) && r.rows == t.rows[..k] + t.rows[k + 1..] && r.cfg == t.cfg
  {
    IdentifiableDistinct(t.cfg, t.rows);
    IndexOfDistinct(t.rows, k);
    assert RemoveFirst(t.rows, t.rows[k]) == t.rows[..k] + t.rows[k + 1..];
  }

  /** With identifiable records, once record `k` is gone window `k` picks its successor. */
  lemma SuccessorPicked(cfg: Config, rows: seq<Row>, k: nat)
    requires Identifiable(cfg, rows) && k + 1 < |rows|
    ensures Identifiable(cfg, rows[..k] + rows[k + 1..])
    ensures Picked(cfg, rows[..k] + rows[k + 1..], k) == Some(rows[k + 1])
    ensures ShownText(cfg, rows[..k] + rows[k + 1..], k) != Placeholder
  {
    var rest := rows[..k] + rows[k + 1..];
    IdentifiableDrop(cfg, rows, k);
    PickedOwnRecord(cfg, rest, k);
    assert rest[k] == rows[k + 1];
  }

  /** When the record that moves into window `k` is picked there, it becomes selected. */
  lemma DeleteSelectedMoves(t: Table, k: nat, names: seq<string>)
    requires Valid(t) && FirstIsLabel(t.cfg.keys, t.cfg.titles) && k + 1 < |t.rows|
    requires t.selected.Some? && t.selIdx == Some(k) && |names| == |t.rows| - 1
    requires Delete(t, true, names).0.rows == t.rows[..k] + t.rows[k + 1..] && Delete(t, true, names).0.cfg == t.cfg
    requires Drawable(t.cfg, t.rows[..k] + t.rows[k + 1..])
    requires Picked(t.cfg, t.rows[..k] + t.rows[k + 1..], k) == Some(t.rows[k + 1])
    requires ShownText(t.cfg, t.rows[..k] + t.rows[k + 1..], k) != Placeholder
    ensures var r := Delete(t, true, names).0;
            r.selected == Some(t.rows[k + 1]) && r.selIdx == Some(k) && r.selW == Some(k)
  {
    var rest := t.rows[..k] + t.rows[k + 1..];
    var r := Delete(t, true, names).0;
    assert r.rows == rest && r.cfg == t.cfg && k < |r.rows|;
    assert r.selected == Picked(r.cfg, r.rows, k);
    assert r.selW == Some(k);
  }

  /** With pairwise different keys, the sentinel window shows the placeholder text. */
  lemma SentinelShowsPlaceholder(cfg: Config)
    requires SentinelDefined(cfg.titles, cfg.keys) && Distinct(cfg.keys)
    requires Drawable(cfg, [Sentinel(cfg.titles, cfg.keys)]) && FirstIsLabel(cfg.keys, cfg.titles)
    ensures ShownText(cfg, [Sentinel(cfg.titles, cfg.keys)], 0) == Placeholder
    ensures Picked(cfg, [Sentinel(cfg.titles, cfg.keys)], 0).None?
  {
    assert HasKeys([Sentinel(cfg.titles, cfg.keys)][0], cfg.keys);
    SentinelValue(cfg.titles, cfg.keys, |cfg.titles|, 0);
  }

  /** A click on a table of one window showing the placeholder selects nothing. */
  lemma PlaceholderNotSelectable(t: Table, mode: MatchMode, path: string)
    requires Valid(t) && |t.rows| == 1 && ClickServable(t, mode, path)
    requires FirstIsLabel(t.cfg.keys, t.cfg.titles) ==> ShownText(t.cfg, t.rows, 0) == Placeholder
    ensures var r := Click(t, mode, path);
            r.selected.None? && r.selW.None?
  {
    if Matches(mode, t.names[0], path) {
      assert IsLastMatch(t.names, mode, path, 0, 0);
    }
  }

  /**
    The sentinel row cannot be selected: whatever is clicked while only the
    sentinel is shown, no record is selected and no window is `selected_w`.
   */
  lemma SentinelNotSelectable(t: Table, mode: MatchMode, path: string)
    requires Valid(t) && SentinelDefined(t.cfg.titles, t.cfg.keys) && Distinct(t.cfg.keys)
    requires t.rows == [Sentinel(t.cfg.titles, t.cfg.keys)] && ClickServable(t, mode, path)
    ensures var r := Click(t, mode, path);
            GetSelected(r).None? && r.selW.None?
  {
    if FirstIsLabel(t.cfg.keys, t.cfg.titles) {
      SentinelShowsPlaceholder(t.cfg);
    }
    PlaceholderNotSelectable(t, mode, path);
  }

  /** Two label descriptors whose column both use the key "a". */
  const RepeatedKeyConfig: Config := Config(["a", "a"], [Title("A", 10, "l"), Title("B", 10, "l")], 200, 300)

  /**
    `SentinelNotSelectable` needs pairwise different keys: with "a" declared
    twice, `check_rows` writes the placeholder under "a" for the first
    descriptor and overwrites it with "" for the second. The sentinel then
    shows "" and a click on its window selects it.
   */
  lemma RepeatedKeySentinelSelectable()
    ensures SentinelDefined(RepeatedKeyConfig.titles, RepeatedKeyConfig.keys)
    ensures Sentinel(RepeatedKeyConfig.titles, RepeatedKeyConfig.keys) == map["a" := ""]
    ensures var t := Load(New(Some(RepeatedKeyConfig.keys), Some(RepeatedKeyConfig.titles), None, None),
                          [map["a" := ""]], false, ["!frame"]);
            ClickServable(t, ExactName, ".!canvas" + "." + "!frame") &&
            GetSelected(Click(t, ExactName, ".!canvas" + "." + "!frame")) == Some(map["a" := ""])
  {
    var cfg := RepeatedKeyConfig;
    assert FirstAt(cfg.titles, 0) == 0 && FirstAt(cfg.titles, 1) == 1;
    assert FirstAt(cfg.keys, 0) == 0 && FirstAt(cfg.keys, 1) == 0;
    assert SentinelPrefix(cfg.titles, cfg.keys, 1) == map["a" := Placeholder];
    assert SentinelPrefix(cfg.titles, cfg.keys, 2) == map["a" := ""];
    var row: Row := map["a" := ""];
    var t := Load(New(Some(cfg.keys), Some(cfg.titles), None, None), [row], false, ["!frame"]);
    assert t.names == ["!frame"] && t.rows == [row];
    assert ShownText(t.cfg, t.rows, 0) == "";
    ExactClickSelects(t, ".!canvas", 0);
  }

  /**
    Deleting the only record returns it, shows the sentinel and leaves
    nothing selected.
   */
  lemma DeleteOnlyRecord(t: Table, names: seq<string>)
    requires Valid(t) && t.selected.Some? && |t.rows| == 1 && Distinct(t.cfg.keys) && DeleteFits(t, names)
    ensures var (r, gone) := Delete(t, true, names);
            gone == Some(t.rows[0]) && r.rows == [Sentinel(t.cfg.titles, t.cfg.keys)] &&
            GetSelected(r).None? && r.selW.None?
  {
    var r := Delete(t, true, names).0;
    if t.selIdx.Some? && t.selIdx.value < |r.rows| {
      SentinelShowsPlaceholder(t.cfg);
    }
  }

  /**
    On the demo rows, a deletion also removes the record from the demo list
    itself: a later `add_rows()` shows the shortened list.
   */
  lemma DeleteShortensMock(t: Table, names: seq<string>, names2: seq<string>)
    requires Valid(t) && t.onMock && t.selected.Some? && 1 < |t.rows| && |names| == |t.rows| - 1
    requires |names2| == |t.rows| - 1
    ensures var r := Delete(t, true, names).0;
            |r.mock| == |t.mock| - 1 &&
            AddRows(r, None, names2).rows == RemoveFirst(t.mock, t.selected.value)
  {
  }

  /** The demo columns: every default key finds a label descriptor. */
  lemma DefaultColumnsDrawable()
    ensures ColumnsDrawable(DefaultKeys, DefaultTitles) && FirstIsLabel(DefaultKeys, DefaultTitles)
  {
    assert FirstAt(DefaultKeys, 1) == 1;
    assert FirstAt(DefaultKeys, 2) == 2;
    assert FirstAt(DefaultKeys, 3) == 3;
  }

  /** No demo record shows the placeholder text. */
  lemma MockNotPlaceholder()
    ensures forall i :: 0 <= i < |MockRows()| ==> MockRows()[i]["col1"] != Placeholder
  {
    MockRowsShape();
    forall i | 0 <= i < |MockRows()|
      ensures MockRows()[i]["col1"] != Placeholder
    {
      assert MockRows()[i] == MockRow(i);
      assert MockRow(i)["col1"][0] == 'v';
    }
  }

  /** The demo configuration, and the demo rows drawn under it. */
  lemma DemoDrawable()
    ensures var t := New(None, None, None, None);
            t.cfg == Config(DefaultKeys, DefaultTitles, DefaultWidth, DefaultHeight) &&
            Identifiable(t.cfg, MockRows())
  {
    MockRowsShape();
    DefaultColumnsDrawable();
    MockNotPlaceholder();
  }

  /**
    `Table(root)` followed by `add_rows()`: thirty windows 26 pixels apart,
    a scroll region 780 pixels high, and a click on any demo window gives
    back that window's record.
   */
  lemma DemoTable(names: seq<string>, parent: string, k: nat)
    requires |names| == MockCount && GoodNames(names) && k < MockCount
    ensures Identifiable(New(None, None, None, None).cfg, MockRows())
    ensures var t := AddRows(New(None, None, None, None), None, names);
            |Frames(t)| == 30 && t.scroll == 780 && t.rows == MockRows() &&
            (forall i :: 0 <= i < 30 ==> Frames(t)[i].y == 26 * i) &&
            ClickServable(t, ExactName, parent + "." + names[k]) &&
            GetSelected(Click(t, ExactName, parent + "." + names[k])) == Some(MockRows()[k])
  {
    MockRowsShape();
    DemoDrawable();
    var t0 := New(None, None, None, None);
    LoadClickGet(t0, None, names, parent, k);
  }

  // ---- a two-record table with one label column "Name" under the key "name"

  const NameCfgKeys: seq<string> := ["name"]
  const NameCfgTitles: seq<Title> := [Title("Name", 10, "l")]
  const RecordA: Row := map["name" := "A"]
  const RecordB: Row := map["name" := "B"]

  /** The table `Table(root, ["name"], [Name label column])` can tell "A" and "B" apart. */
  lemma NameTableIdentifiable()
    ensures var t := New(Some(NameCfgKeys), Some(NameCfgTitles), None, None);
            Identifiable(t.cfg, [RecordA, RecordB])
  {
    var cfg := New(Some(NameCfgKeys), Some(NameCfgTitles), None, None).cfg;
    assert cfg.keys == NameCfgKeys && cfg.titles == NameCfgTitles;
    assert ColumnsDrawable(cfg.keys, cfg.titles) by {
      assert FirstAt(NameCfgKeys, 0) == 0;
    }
    assert FirstIsLabel(cfg.keys, cfg.titles);
    assert Drawable(cfg, [RecordA, RecordB]);
    assert RecordA["name"] != Placeholder && RecordB["name"] != Placeholder by {
      assert |Placeholder| != 1;
    }
    assert RecordA["name"] != RecordB["name"];
  }

  /**
    Load records, click the window of record `k` and confirm `delete_row()`:
    record `k` is returned and gone, the others keep their order, and the
    record that moved up into window `k` is selected (none if `k` was last).
   */
  lemma ClickThenDelete(t: Table, rows: seq<Row>, names: seq<string>, parent: string, k: nat, names2: seq<string>)
    requires Identifiable(t.cfg, rows) && |names| == |rows| && GoodNames(names)
    requires 1 < |rows| && k < |rows| && |names2| == |rows| - 1
    ensures var t1 := AddRows(t, Some(rows), names);
            ClickServable(t1, ExactName, parent + "." + names[k]) &&
            var t2 := Click(t1, ExactName, parent + "." + names[k]);
            GetSelected(t2) == Some(rows[k]) &&
            var (t3, gone) := Delete(t2, true, names2);
            gone == Some(rows[k]) && t3.rows == rows[..k] + rows[k + 1..] &&
            (k + 1 < |rows| ==> GetSelected(t3) == Some(rows[k + 1])) &&
            (k + 1 == |rows| ==> GetSelected(t3).None?) &&
            SingleHighlight(t3)
  {
    LoadClickGet(t, Some(rows), names, parent, k);
    var t1 := AddRows(t, Some(rows), names);
    var t2 := Click(t1, ExactName, parent + "." + names[k]);
    assert t2.rows == rows && t2.cfg == t.cfg;
    DeleteSelectedWindow(t2, k, names2);
  }

  /** The toolkit's names for the first two windows are good window names. */
  lemma TwoWindowNames()
    ensures GoodNames(["!frame", "!frame2"])
  {
    assert "!frame" != "!frame2";
  }

  /**
    On a table whose columns tell "A" and "B" apart (such as the one of
    `NameTableIdentifiable`), load ["A", "B"], select "B" (the second
    window) and delete it: the list becomes ["A"] and
    "B" is returned. The old `sel_ind` 1 is no window position any more, so
    nothing is selected afterwards.
   */
  lemma DeleteSecondExample(t: Table)
    requires Identifiable(t.cfg, [RecordA, RecordB])
    ensures var t1 := AddRows(t, Some([RecordA, RecordB]), ["!frame", "!frame2"]);
            ClickServable(t1, ExactName, ".!canvas" + "." + "!frame2") &&
            var t2 := Click(t1, ExactName, ".!canvas" + "." + "!frame2");
            GetSelected(t2) == Some(RecordB) &&
            var (t3, gone) := Delete(t2, true, ["!frame3"]);
            gone == Some(RecordB) && t3.rows == [RecordA] && GetSelected(t3).None?
  {
    var rows := [RecordA, RecordB];
    TwoWindowNames();
    ClickThenDelete(t, rows, ["!frame", "!frame2"], ".!canvas", 1, ["!frame3"]);
    assert rows[..1] + rows[2..] == [RecordA];
  }

  /** As above, but select "A" (the first window): the list becomes ["B"], and "B" moves up and is selected. */
  lemma DeleteFirstExample(t: Table)
    requires Identifiable(t.cfg, [RecordA, RecordB])
    ensures var t1 := AddRows(t, Some([RecordA, RecordB]), ["!frame", "!frame2"]);
            ClickServable(t1, ExactName, ".!canvas" + "." + "!frame") &&
            var t2 := Click(t1, ExactName, ".!canvas" + "." + "!frame");
            GetSelected(t2) == Some(RecordA) &&
            var (t3, gone) := Delete(t2, true, ["!frame3"]);
            gone == Some(RecordA) && t3.rows == [RecordB] && GetSelected(t3) == Some(RecordB)
  {
    var rows := [RecordA, RecordB];
    TwoWindowNames();
    ClickThenDelete(t, rows, ["!frame", "!frame2"], ".!canvas", 0, ["!frame3"]);
    assert rows[..0] + rows[1..] == [RecordB];
  }
}

=== FILE: widgets.dfy ===
/**
  The widgets of one row window, as `add_rows` and `_make_row_widgets`
  create them, and the background recolouring `_shade` applies to them.
 */
module Widgets {
  import opened Options
  import opened Seqs
  import opened Rows
  import opened Layout

  /** The toolkit widgets a row window contains, with the options the widget sets. */
  datatype Widget =
    | Label(text: string, width: int, background: string)
    | Combobox(values: string, width: int, current: Option<nat>)
    | Entry(text: string, width: int)
    | Separator(vertical: bool)

  /** One row window on the canvas: its toolkit name, position and children in creation order. */
  datatype Frame = Frame(name: string, x: int, y: int, widgets: seq<Widget>)

  /** Background given to the labels of a selected row. */
  const SelectedColour: string := "grey"

  /** The cell `type` letters `_make_row_widgets` knows: label, combobox, entry. */
  predicate KnownKind(kind: string) {
    kind == "l" || kind == "c" || kind == "e"
  }

  /**
    `_shade`: every Label gets background `colour` (`None` meaning the empty
    string, the theme default); widgets of other classes are left alone.
   */
  function Shade(ws: seq<Widget>, colour: Option<string>): (r: seq<Widget>)
    ensures |r| == |ws|
    ensures forall i :: 0 <= i < |ws| ==>
              r[i] == if ws[i].Label? then ws[i].(background := colour.GetOr("")) else ws[i]
  {
    if |ws| == 0 then []
    else
      var w := if ws[0].Label? then ws[0].(background := colour.GetOr("")) else ws[0];
      [w] + Shade(ws[1..], colour)
  }

  /** No label carries a colour of its own. */
  predicate Unshaded(ws: seq<Widget>) {
    forall i :: 0 <= i < |ws| && ws[i].Label? ==> ws[i].background == ""
  }

  /** Shading twice with the same colour is shading once. */
  lemma ShadeIdempotent(ws: seq<Widget>, colour: Option<string>)
    ensures Shade(Shade(ws, colour), colour) == Shade(ws, colour)
  {
  }

  /** After shading, every label carries the colour. */
  lemma ShadeColours(ws: seq<Widget>, colour: string)
    ensures forall p :: 0 <= p < |ws| && Shade(ws, Some(colour))[p].Label? ==>
              Shade(ws, Some(colour))[p].background == colour
  {
    var r := Shade(ws, Some(colour));
    forall p | 0 <= p < |ws| && r[p].Label?
      ensures r[p].background == colour
    {
      assert ws[p].Label?;
    }
  }

  /** Unshading a row nobody shaded changes nothing. */
  lemma UnshadeUnshaded(ws: seq<Widget>)
    requires Unshaded(ws)
    ensures Shade(ws, None) == ws
  {
  }

  /** Unshading a shaded row gives back the row as it was drawn. */
  lemma ShadeUndo(ws: seq<Widget>, colour: Option<string>)
    requires Unshaded(ws)
    ensures Shade(Shade(ws, colour), None) == ws
  {
  }

  // ---- `_make_row_widgets`

  /**
    Each key finds its descriptor with `keys.index` and that descriptor's
    type is one `_make_row_widgets` builds a widget for (an unknown type
    leaves `None` in the list, on which `_sep_work` then fails).
   */
  predicate ColumnsDrawable(keys: seq<string>, titles: seq<Title>) {
    forall c :: 0 <= c < |keys| ==>
      FirstAt(keys, c) < |titles| && KnownKind(titles[FirstAt(keys, c)].kind)
  }

  /** The record has every key (otherwise the lookup `rows_list[_i][key]` fails). */
  predicate HasKeys(row: Row, keys: seq<string>) {
    forall c :: 0 <= c < |keys| ==> keys[c] in row
  }

  /** The cell widget for one value under one descriptor. */
  function MakeCell(text: string, t: Title): (w: Widget)
    requires KnownKind(t.kind)
    ensures w.Label? <==> t.kind == "l"
    ensures w.Combobox? <==> t.kind == "c"
    ensures w.Entry? <==> t.kind == "e"
    ensures w.Label? ==> w.text == text && w.width == t.width && w.background == ""
    ensures w.Combobox? ==> w.values == text && w.width == t.width - 3 &&
                            (w.current.Some? <==> |text| > 0) && (w.current.Some? ==> w.current.value == 0)
    ensures w.Entry? ==> w.text == text && w.width == t.width
  {
    if t.kind == "l" then Label(text, t.width, "")
    else if t.kind == "c" then Combobox(text, t.width - 3, if |text| > 0 then Some(0) else None)
    else Entry(text, t.width)
  }

  /** The cells for `keys[c..]`, as the loop of `_make_row_widgets` appends them. */
  function CellsFrom(keys: seq<string>, titles: seq<Title>, row: Row, c: nat): (r: seq<Widget>)
    requires c <= |keys| && ColumnsDrawable(keys, titles) && HasKeys(row, keys)
    ensures |r| == |keys| - c
    ensures forall p :: 0 <= p < |r| ==>
              r[p] == MakeCell(row[keys[c + p]], titles[FirstAt(keys, c + p)])
    decreases |keys| - c
  {
    if c == |keys| then []
    else [MakeCell(row[keys[c]], titles[FirstAt(keys, c)])] + CellsFrom(keys, titles, row, c + 1)
  }

  /**
    The children of the row window for record `row` at position `i`, in
    creation order: the "S/N" label, one cell per key, the vertical rules
    `_sep_work` adds (one more than the widgets), then the closing horizontal rule.
   */
  function RowWidgets(keys: seq<string>, titles: seq<Title>, row: Row, i: nat): (ws: seq<Widget>)
    requires ColumnsDrawable(keys, titles) && HasKeys(row, keys)
    ensures |ws| == 2 * |keys| + 4
    ensures ws[0] == Label(Decimal(i + 1), 5, "")
    ensures forall c :: 0 <= c < |keys| ==>
              ws[c + 1] == MakeCell(row[keys[c]], titles[FirstAt(keys, c)])
    ensures forall p :: |keys| + 1 <= p < 2 * |keys| + 3 ==> ws[p] == Separator(true)
    ensures ws[2 * |keys| + 3] == Separator(false)
    ensures Unshaded(ws)
  {
    var cells := CellsFrom(keys, titles, row, 0);
    var rules := seq(|keys| + 2, _ => Separator(true));
    [Label(Decimal(i + 1), 5, "")] + cells + rules + [Separator(false)]
  }

  /**
    A click on this window can be served: its second child is a label
    `_select` reads `text` from. This is the condition on the drawn window;
    `FirstIsLabel` is the same condition read off the configuration, which
    `ClickableRow` proves equivalent for every drawn row and which the
    operations use as their precondition.
   */
  predicate Clickable(f: Frame) {
    |f.widgets| > 1 && f.widgets[1].Label?
  }

  /** The first column is a label column (`_select` reads `_wch[1]['text']`); see `Clickable`. */
  predicate FirstIsLabel(keys: seq<string>, titles: seq<Title>) {
    |keys| >= 1 && |titles| >= 1 && titles[0].kind == "l"
  }

  /**
    The row windows `works()` in `add_rows` creates, in order, named by the
    toolkit with `names`.
   */
  function Render(keys: seq<string>, titles: seq<Title>, rows: seq<Row>, names: seq<string>): (fs: seq<Frame>)
    requires |names| == |rows| && (|rows| > 0 ==> ColumnsDrawable(keys, titles))
    requires forall i :: 0 <= i < |rows| ==> HasKeys(rows[i], keys)
    ensures |fs| == |rows|
    ensures forall i :: 0 <= i < |rows| ==>
              fs[i].name == names[i] && fs[i].x == WindowX && fs[i].y == RowHeight * i &&
              fs[i].widgets == RowWidgets(keys, titles, rows[i], i)
  {
    var ys := RowOffsets(|rows|);
    seq(|rows|, i requires 0 <= i < |rows| => Frame(names[i], WindowX, ys[i], RowWidgets(keys, titles, rows[i], i)))
  }

  /**
    A drawn row window can be clicked exactly when the first column is a
    label column, and its second child then shows the record's first value.
   */
  lemma ClickableRow(keys: seq<string>, titles: seq<Title>, row: Row, i: nat)
    requires ColumnsDrawable(keys, titles) && HasKeys(row, keys)
    ensures var f := Frame("", WindowX, 0, RowWidgets(keys, titles, row, i));
            Clickable(f) <==> FirstIsLabel(keys, titles)
    ensures FirstIsLabel(keys, titles) ==> RowWidgets(keys, titles, row, i)[1].text == row[keys[0]]
  {
    var ws := RowWidgets(keys, titles, row, i);
    if |keys| == 0 {
      assert ws[1] == Separator(true);
    } else {
      assert FirstAt(keys, 0) == 0;
    }
  }
}
